=== FILE: README.md ===
# gitlet in Dafny

A model of the object store and the commands of gitlet, a small version-control
system. It covers how commits are built and hashed, staging (`add`, `rm`),
`commit`, branches (`branch`, `rm-branch`), the three forms of `checkout`,
`reset`, commit lookup by abbreviated id, and the full `merge`. `merge`
includes its failure checks, the breadth-first split-point search, the
per-file reconciliation and conflict files, and the final two-parent commit.

The model is split into modules that follow the program:

- `Wrappers` (wrappers.dfy) holds `Option`, which stands in for Java's nullable references.
- `Objects` (objects.dfy) models blobs, commits, commit ids, and how a child commit's file map comes from its parent, the staging map and the removal list (`Commit.java`).
- `History` (history.dfy) covers the commit graph:
  - `isParent`, which follows the first-parent chain;
  - reachability over both parents;
  - the breadth-first ancestor walk and the split-point search.
- `Repository` (repo.dfy) holds the repository state and every command except merge (`Repo.java`).
- `Merging` (merge.dfy) covers `merge`, `mergeCheck`, `mergeForLoop`, `mergeConflict` and `checkUntracked`.
- `Findings` (findings.dfy) models four defects as written, next to the corrected behaviour that the other modules use.

A command is a function from a `State` (the repository plus the working
directory, a map from file name to content) to an `Outcome`:

- `Ok(state)` means the command completed and the repository is written back.
- `Exit(error, wd)` means the command printed a message and called `System.exit`. The repository is then not saved. The working directory is kept as it is on disk at that moment.

Hashing is abstract. Every operation receives a `Hasher`, which holds two functions:

- `sha1` stands for `Utils.sha1` over a list of strings. A digest is always 40 characters.
- `joinNames` stands for the concatenation of a commit's file names in `HashMap` order. The model takes that order to depend on the set of names alone. This is an assumption, not a fact about Java; see "## Left out".

A commit carries one field the source does not have: `gen`, a generation number strictly above its parents'. Well-formed stores (`StoreOk`) require every parent id to be stored with a lower `gen`. This is what makes the walks over history terminate.

Where this code departs from the documented gitlet behaviour, the model follows the code:

- `commit` refuses "No changes added to the commit." even at the end of a merge.
- `isParent` follows only first parents. It does test both parent ids of each commit on that chain.
- Abbreviated ids match anywhere inside an id, not only as a prefix (`String.contains`).
- The merge message names the branch recorded in the HEAD commit. That is the branch the HEAD commit was made on, not necessarily the current branch.
- When the given branch's commit is HEAD itself and HEAD has a parent, the search settles on a parent of HEAD. `merge` then goes on and ends with "No changes added to the commit." It does not report an ancestor. When HEAD is the initial commit the search finds nothing; the source then dereferences a null split point, and the model reports an ancestor, as for the last finding below.

## Model

| member | source | states |
|---|---|---|
| Objects.IdDeterminedByMetadata | gitlet/Commit.java:71-85 | two commits with the same time, message, parent ids and file names have the same id, whatever else differs |
| Objects.IdIgnoresContents | gitlet/Commit.java:71-85 | changing the blobs under the same names never changes a commit's id |
| Objects.IdComponents | gitlet/Commit.java:71-85 | a root's id hashes three strings (time, message, names); a child's hashes four, with the second parent appended to the first only for a merge commit |
| Objects.GetBlob | gitlet/Commit.java:61-66 | a blob is returned exactly when the commit tracks the name, and it is the tracked one |
| Objects.FileNames | gitlet/Commit.java:95-102 | the listed names are exactly the tracked names |
| Objects.Overlay | gitlet/Commit.java:107-115 | the copied-and-updated map has the parent's and the staged names, and names not staged keep the parent's blob |
| Objects.ApplyRemovals | gitlet/Commit.java:142-146 | draining the removal list deletes exactly the listed names and leaves every other entry alone |
| Objects.SnapshotRules | gitlet/Commit.java:122-147 | removed names are gone even if staged; a staged name takes the staged blob unless its sha equals the parent's; other names keep the parent's entry; nothing else appears |
| Objects.Child | gitlet/Commit.java:27-49 | a new commit names its parent's id, records a second parent exactly when made by a merge, sits above both parents, and holds the parent's snapshot updated by staging and removals |
| History.ParentIds | gitlet/Commit.java:151-159 | the listed ids are exactly the first and second parent ids |
| History.FirstParentChain | gitlet/Repo.java:604-622 | the chain `isParent` walks starts at the child, follows first parents, and ends at a root |
| History.IsParentOnChain | gitlet/Repo.java:604-622 | `isParent(p, c)` holds exactly when some commit on c's first-parent chain names p as first or second parent |
| History.IsParentBelow | gitlet/Repo.java:604-622 | a commit reported as a parent is stored and of a lower generation |
| History.NotOwnParent | gitlet/Repo.java:604-622 | no commit is reported as its own parent |
| History.ReachParent | gitlet/Repo.java:547-562 | ancestry is closed under both parent links |
| History.ClosedHoldsAncestors | gitlet/Repo.java:547-562 | a set that contains the start and is closed under parents contains every ancestor |
| History.Bfs | gitlet/Repo.java:547-562 | the walk lists stored, not yet visited commits, each once |
| History.BfsDrains | gitlet/Repo.java:547-562 | the queue is first in, first out: the walk lists the fresh ids at the front of the queue before anything queued behind them, whose parents then join the back |
| History.NearReach | gitlet/Repo.java:547-562 | every id within some number of parent links of HEAD is an ancestor of HEAD |
| History.AncestryByDistance | gitlet/Repo.java:547-562 | the walk is breadth-first: no id is listed after an id farther from HEAD, distance counting the fewest parent links |
| History.BfsSound | gitlet/Repo.java:547-562 | everything the walk lists is an ancestor of the start |
| History.BfsComplete | gitlet/Repo.java:547-562 | together with the visited set, the walk's output is closed under parents |
| History.Ancestry | gitlet/Repo.java:547-562 | the ancestry list holds stored ids without repetition |
| History.AncestryExact | gitlet/Repo.java:547-562 | the list starts with HEAD and holds exactly the commits HEAD descends from (itself included) |
| History.FirstParentOf | gitlet/Repo.java:563-570 | the first listed id that is a parent of the tip is returned; none is returned exactly when no listed id is one |
| History.SplitOverAncestry | gitlet/Repo.java:547-571 | scanning the ancestry finds nothing exactly when no ancestor of HEAD is a parent of the tip |
| History.FindSplit | gitlet/Repo.java:547-571 | the split point is an ancestor of HEAD and a parent of the tip, and no id listed before it in the walk is one; there is none exactly when no ancestor of HEAD is one |
| History.SplitIsNearest | gitlet/Repo.java:547-571 | whenever some ancestor of HEAD is a parent of the tip, a split point exists and lies no more links from HEAD than that ancestor |
| Repository.HeadId | gitlet/Repo.java:343-345 | the current branch points at a stored commit |
| Repository.GetHead | gitlet/Repo.java:343-345 | the HEAD commit's parents are stored below it |
| Repository.InitFacts | gitlet/Repo.java:24-43 | the new repository is well formed, on "master", with one root commit that has no parent, no files, the epoch time and "initial commit", and nothing staged |
| Repository.RemoveAll | gitlet/Repo.java:79 | (corrected, see Findings) every occurrence of the name leaves the removal list and every other entry stays |
| Repository.AddDecision | gitlet/Repo.java:59-77 | the file is left unstaged exactly when HEAD tracks it with a blob of the same sha; otherwise its new blob is staged |
| Repository.StageFile | gitlet/Repo.java:59-77 | only the added name's staging entry changes, and it holds the new blob unless HEAD already has it |
| Repository.Add | gitlet/Repo.java:54-79 | (corrected, see Findings) `add` fails exactly when the file is missing; otherwise it changes only staging and the removal list, staging the file's blob and unmarking it for removal |
| Repository.AddIdempotent | gitlet/Repo.java:54-79 | (corrected, see Findings) adding the same file twice equals adding it once |
| Repository.RemoveAllIdempotent | gitlet/Repo.java:79 | unmarking twice equals unmarking once |
| Repository.AddUnchangedUnstages | gitlet/Repo.java:70-71 | adding a file whose content HEAD already tracks leaves it unstaged |
| Repository.CommitChanges | gitlet/Repo.java:84-106 | `commit` refuses an empty message and an empty change set, and otherwise stores a child of HEAD (second parent from a pending merge) with the updated snapshot, moves the current branch to it and clears staging, removals and the merge flag |
| Repository.CommitPreservesWf | gitlet/Repo.java:84-106 | a commit with a fresh id keeps the repository well formed |
| Repository.Rm | gitlet/Repo.java:110-133 | `rm` fails exactly when the file is neither staged nor tracked; it unstages the file, and a tracked file is also deleted from disk and marked for removal |
| Repository.AddRmPreserveWf | gitlet/Repo.java:54-133 | `add` and `rm` keep the repository well formed |
| Repository.Branch | gitlet/Repo.java:225-231 | `branch` fails exactly on an existing name; otherwise the new name points at HEAD and nothing else changes |
| Repository.RmBranch | gitlet/Repo.java:310-320 | `rm-branch` fails on a missing name and on the current branch; otherwise exactly that name is dropped and the other pointers stay |
| Repository.BranchPreservesWf | gitlet/Repo.java:225-231 | creating a branch keeps the repository well formed |
| Repository.RmBranchPreservesWf | gitlet/Repo.java:310-320 | deleting a branch keeps the repository well formed |
| Repository.ContainsSelf | gitlet/Repo.java:332 | every id contains itself |
| Repository.ContainsSameLength | gitlet/Repo.java:332 | a string contained in another of the same length is equal to it |
| Repository.LookupId | gitlet/Repo.java:326-339 | the lookup returns the first listed name that contains the query, and only if it names a stored commit; with a listing of stored ids it finds nothing exactly when no id contains the query |
| Repository.LookupMatchesInfix | gitlet/Repo.java:326-339 | any piece of an id, not only a prefix, finds that id |
| Repository.LookupExact | gitlet/Repo.java:326-339 | a full id always finds its own commit |
| Repository.Checkout1 | gitlet/Repo.java:236-245 | checking out a file fails exactly when the commit does not track it; otherwise the file gets the committed content and is unstaged |
| Repository.Checkout2 | gitlet/Repo.java:250-257 | an unknown id fails with "No commit with that id exists."; a found one behaves as checking out the file from that commit |
| Repository.SwapTree | gitlet/Repo.java:283-292 | every target file holds its committed content, files only the old HEAD tracked are deleted, untracked files are untouched, and nothing else appears |
| Repository.UntrackedClearProtects | gitlet/Repo.java:649-667 | the untracked-file check passes exactly when swapping the tree leaves every file HEAD does not track on disk with its content |
| Repository.CheckOutCommit | gitlet/Repo.java:278-294 | checking out a commit fails exactly when an untracked file would be overwritten with different content; otherwise it swaps the tree and clears staging |
| Repository.AddCommitCheckout | gitlet/Repo.java:54-106 | provided HEAD's blob for f shares its sha with no blob of other content and the new commit's id is not already stored: if `add f` and then `commit` succeed, the new HEAD is well formed and tracks f with the added content, and `checkout -- f` restores that content whatever the disk holds by then |
| Repository.Checkout3 | gitlet/Repo.java:261-274 | a missing branch and the current branch are refused; otherwise the branch's commit is checked out and becomes HEAD |
| Repository.ResetTo | gitlet/Repo.java:298-306 | `reset` checks the commit out and points the current branch at it, or fails on an untracked file in the way |
| Repository.Reset | gitlet/Repo.java:298-306 | an unknown id is refused; a found one resets to that commit |
| Repository.Checkout3RestoresSnapshot | gitlet/Repo.java:261-294 | after a branch checkout HEAD is the branch's commit and the working directory holds its files, without the old HEAD's other files, with nothing staged |
| Repository.ResetRestoresSnapshot | gitlet/Repo.java:278-306 | after a reset the repository is well formed, the current branch points at the commit, and the working directory holds its files |
| Merging.ConflictText | gitlet/Repo.java:629-642 | a conflict file is the HEAD marker, HEAD's content, the separator, the branch's content and the end marker, an absent side contributing nothing |
| Merging.ClassifyIsThreeWay | gitlet/Repo.java:376-460 | for every split, HEAD and branch version of a name, the source's case table resolves it the way the textbook three-way merge does (same on both sides wins, a side equal to the split yields, otherwise conflict) |
| Merging.KeepIsResolvedToHead | gitlet/Repo.java:376-460 | the merge leaves a name alone exactly when the three-way merge resolves it to HEAD's version; every other case acts on the name |
| Merging.MergedWdFrame | gitlet/Repo.java:376-460 | a name in none of the split, HEAD and branch commits is on disk after the merge exactly when it was before, with the same content |
| Merging.MergedWd | gitlet/Repo.java:376-460 | the merge writes no file that is in neither the working directory nor any of the three commits |
| Merging.MergedWdRules | gitlet/Repo.java:376-460 | a name whose three-way resolution differs from HEAD's version ends on disk as resolved, conflicts hold the marker text, and a name resolved to HEAD's version is left on disk as it was |
| Merging.MergedStagingRules | gitlet/Repo.java:376-460 | by the three-way resolution: a name resolved to HEAD's version or to an absence is not staged; a name only the branch has is staged with the branch's blob; a name HEAD has whose resolution is new content, or a clash, is staged with the resolved content or conflict text exactly as `add` decides |
| Merging.Enumerate | gitlet/Repo.java:441 | the removal list names exactly the names the merge removes |
| Merging.PlanMerge | gitlet/Repo.java:356-375 | the refusals come in the source's order; a tip on HEAD's first-parent chain is reported as an ancestor unless an untracked file is in the way; a fast-forward has HEAD as parent of the tip; a real merge has a split that is a proper ancestor of HEAD and a parent of the tip; once the checks pass, the merge is a fast-forward to the tip exactly when the split point found is HEAD and reconciles from that split point otherwise |
| Merging.Reconciled | gitlet/Repo.java:376-460 | the state before the final commit is well formed, holds on disk and in staging what every name's action leaves, lists exactly the removed names for removal, has the tip pending as second parent, and changes nothing else |
| Merging.Merge | gitlet/Repo.java:356-406 | a refused merge changes nothing and a fast-forward is a reset to the tip |
| Merging.SnapshotResolves | gitlet/Repo.java:376-460 | HEAD's files updated by the merge's staging and removals hold, name by name, the three-way resolution of split, HEAD and tip, and agree with the merged disk on every name the merge acted on (given no sha shared by HEAD's blob and a blob of other content) |
| Merging.MergeResolvesEachName | gitlet/Repo.java:356-406 | in a completed merge commit every name holds what the three-way merge of split, HEAD and tip resolves: the agreed or the one changed content, no file where that is an absence, the conflict text on a clash; every name the merge acted on is on disk as the commit holds it (given no sha shared by HEAD's blob and a blob of other content) |
| Merging.FastForwardMovesBranch | gitlet/Repo.java:371-375 | a fast-forward moves the current branch to the tip and makes the tip HEAD |
| Merging.MergeCommitRecordsBothParents | gitlet/Repo.java:84-106 | a commit made while a merge is pending records HEAD and the pending commit as its two parents |
| Merging.MergeCommitFacts | gitlet/Repo.java:402-405 | a completed merge stores a commit with HEAD as first parent, the tip as second, the message "Merged <branch> into <name>." and the snapshot of HEAD updated by the merge's staging and removals; `commit` refuses exactly when the merge staged and removed nothing |
| Findings.MergeAsWritten | gitlet/Repo.java:371-375 | merge with only the fast-forward exit taken as written: when the plan is a fast-forward the reset succeeds and the command exits with the reset's working directory and no saved repository; every other plan is the corrected merge |
| Findings.FastForwardLost | gitlet/Repo.java:371-375 | as written, every fast-forward exits without moving the current branch, although the tip is a different commit |
| Findings.FastForwardReachable | gitlet/Repo.java:371-375 | a repository whose branch is one commit ahead of master plans a fast-forward, and the code as written exits on it |
| Findings.RemoveFirst | gitlet/Repo.java:79 | `LinkedList.remove` drops exactly the first occurrence and keeps the rest in order; a list without the name is unchanged |
| Findings.AddAsWritten | gitlet/Repo.java:54-79 | as written, `add` fails and stages exactly as the corrected one, but drops only the first occurrence of the name from the removal list; nothing else changes |
| Findings.RmTwiceOutlivesAdd | gitlet/Repo.java:121-124 | after `rm f` twice and `add f`, the code as written still marks f for removal; the corrected `add` does not |
| Findings.ForEachRemoving | gitlet/Repo.java:378-388 | the names the loop body ran on extend the ones before, and each comes from the list |
| Findings.ConflictLoopFails | gitlet/Repo.java:378-388 | removing a conflicting name while iterating throws when two names follow it and skips the last name when one follows |
| Findings.ForEachKeepingVisitsAll | gitlet/Repo.java:378-388 | a loop that removes nothing runs its body on every remaining element in order |
| Findings.ConflictLoopVisitsAll | gitlet/Repo.java:378-388 | the intended conflict loop reaches every name HEAD added |
| Findings.PlanMergeAsWritten | gitlet/Repo.java:356-375 | the checks as written differ from the corrected ones only by a null split point where the tip is an ancestor |
| Findings.RootTipHasNoSplit | gitlet/Repo.java:547-571 | merging a branch left at the initial commit finds no split point as written, and is reported as an ancestor by the corrected checks |

## Left out

- `Main.java`: argument parsing and the command dispatch are not modelled. Neither is serialising the repository to `.gitlet`. Serialising matters only in that an `Exit` discards the repository.
- Disk I/O is not modelled. The working directory is a map from name to content, and the `commits` directory listing that `getCommitFromId` scans is the `listing` parameter of `Checkout2` and `Reset`. File bytes and their string decoding are both modelled as one string.
- `log`, `global-log`, `find` and `status` are not modelled, and neither is their bookkeeping (`updateList`, `_untrackedFile`, `_modiList`). They do not change the repository.
- `getSplit`, `getParentMap`, `getSplitPoint`, `findParent` and `findParentHelper` are left out because no command calls them.
- `ZonedDateTime.now()` and its formatting are left out. The formatted time is the `now` parameter.
- SHA-1 is not modelled; `sha1` is an arbitrary function. Three lemmas assume that blobs do not collide on the names they concern: `AddCommitCheckout` assumes HEAD's blob for f shares its sha with no blob of f holding other content, and `SnapshotResolves` and `MergeResolvesEachName` assume the same through `NoShaClash`. Commit ids are not assumed collision-free. `CommitPreservesWf` and `AddCommitCheckout` instead assume that the new commit's id is not already stored, and `MergeCommitRecordsBothParents` holds regardless.
- Objects.CommitId: the model assumes `HashMap` iteration order depends only on the set of names. In Java it also depends on the bucket count, which grows as entries are added and is recomputed from the size when the repository is reloaded. So a commit whose map shrank before its id was computed could later hash its names in another order, and `getSha()` could then differ from its key. `IdsConsistent` and `IdDeterminedByMetadata` rest on the assumption.
- History.Bfs: it skips a dequeued commit it has already listed, whereas the source's queue and list keep duplicates. Both list the same ids in the same first-visit order, so the split point found is the same. That equivalence is argued here, not proved.
- History.FindSplit: the order among ids at the same distance from HEAD (first parents before second parents, in queue order) is what the body computes; the contracts state only that the walk goes by nondecreasing distance and that the split point is the first qualifying id listed.
- Merging.Enumerate: it is ghost, and the order in which the merge's removals are listed stands for `HashMap` iteration order. Only the set of names reaches the commit.
- Merging.Merge: `merge` and `bfsFindSplit` look commits up by their full ids through the directory listing: the branch tip (gitlet/Repo.java:358), each commit the walk dequeues and the split point it returns (gitlet/Repo.java:554 and 567), and the pending second parent inside `commit` (gitlet/Repo.java:94). The model reads the stored commit directly, which `LookupExact` justifies.
- Merging.Merge: the loop that conflicts names both sides added is modelled as running on every such name, which is the corrected loop of `ConflictLoopVisitsAll`. `ConflictLoopFails` shows what the code does instead.
- Merging.Merge: it is not proved to keep the repository well formed, because that needs the merge commit's id to be fresh. `CommitPreservesWf` states the condition.
- A merge whose split point is found but is not a real common ancestor is modelled as the source computes it. `bfsFindSplit` picks the first breadth-first ancestor of HEAD that is a first-parent-chain parent of the tip.
- `_parentId2` is never cleared. The model keeps the pending second parent until the next merge overwrites it, and reads it only while a merge is pending, as the source does.
- Merge conflicts print "Encountered a merge conflict." That output is not modelled.

## Findings

| source | as written | input that shows it | evidently intended | confidence | as-written member | corrected member |
|---|---|---|---|---|---|---|
| gitlet/Repo.java:371-375 | the fast-forward calls `reset` and then `System.exit(0)`, before `Main` writes the repository back | `init; branch feat; checkout feat; add a; commit; checkout master; merge feat` | master moves to feat's commit | high, not executed | Findings.FastForwardLost | Merging.FastForwardMovesBranch |
| gitlet/Repo.java:121-124 | `rm` appends to the removal list on every call; `add` removes only the first occurrence | `rm f; rm f; (re-create f); add f; commit` | `add f` cancels every pending removal of f | high, not executed | Findings.RmTwiceOutlivesAdd | Repository.Add |
| gitlet/Repo.java:378-388 | the loop over `hList` removes the current name from `hList` | HEAD adds a, b, c since the split and the branch adds a with other content | every name both sides added differently becomes a conflict | high, not executed | Findings.ConflictLoopFails | Findings.ConflictLoopVisitsAll |
| gitlet/Repo.java:547-571 | the split search accepts only a proper parent of the tip, so for a tip at the initial commit it returns null and `merge` dereferences it | `init; branch b; add a; commit; merge b` | "Given branch is an ancestor of the current branch." | high, not executed | Findings.PlanMergeAsWritten | Merging.PlanMerge |

=== FILE: findings.dfy ===
/**
  Four places where gitlet's code does something other than what it evidently
  means to do. Each is modelled as written next to the corrected behaviour the
  rest of the model uses.
 */
module Findings {
  import opened Wrappers
  import opened Objects
  import opened History
  import opened Repository
  import opened Merging

  // ------------------------------------------- fast-forward is never saved

  /**
    `merge(branch)` as written: the fast-forward branch calls `reset` and then
    exits before the repository is written back, so the moved branch pointer
    and the cleared staging area are lost; only the files `reset` wrote stay.
   */
  ghost function MergeAsWritten(h: Hasher, now: string, s: State, branch: string): (o: Outcome)
    requires Wf(h, s.repo)
    ensures !PlanMerge(h, s, branch).FastForward? ==> o == Merge(h, now, s, branch)
    ensures PlanMerge(h, s, branch).FastForward? ==>
      var reset := ResetTo(h, s, PlanMerge(h, s, branch).tip);
      reset.Ok? && o == Exit(FastForwarded, reset.st.wd)
  {
    var p := PlanMerge(h, s, branch);
    if !p.FastForward? then Merge(h, now, s, branch)
    else
      var o := ResetTo(h, s, p.tip);
      if o.Ok? then Exit(FastForwarded, o.st.wd) else o
  }

  /**
    Whenever the merge is a fast-forward, the code as written leaves the
    current branch where it was, although the tip is a different commit the
    corrected merge moves it to.
   */
  lemma FastForwardLost(h: Hasher, now: string, s: State, branch: string)
    requires Wf(h, s.repo)
    requires PlanMerge(h, s, branch).FastForward?
    ensures MergeAsWritten(h, now, s, branch) == Exit(FastForwarded, Merge(h, now, s, branch).st.wd)
    ensures Merge(h, now, s, branch).Ok?
    ensures Merge(h, now, s, branch).st.repo.branches[s.repo.head] == s.repo.branches[branch] != s.repo.branches[s.repo.head]
  {
    var tip := PlanMerge(h, s, branch).tip;
    FastForwardMovesBranch(h, now, s, branch);
    if tip == HeadId(s.repo) {
      NotOwnParent(s.repo.commits, tip);
      assert false;
    }
  }

  const Zeros: Digest := "0000000000000000000000000000000000000000"
  const Ones: Digest := "1111111111111111111111111111111111111111"

  /** A hash that tells the root (three components) from any other commit (four). */
  function WitnessHasher(): Hasher {
    Hasher(parts => if |parts| == 3 then Zeros else Ones, names => "")
  }

  /** `init; branch feat; checkout feat; add a; commit; checkout master`. */
  function FeatureAhead(): State {
    var feat := Commit("now", "add a", Some(Zeros), None, false, "feat", map["a" := MakeBlob(WitnessHasher(), "a", "x")], 1);
    State(Repo(map[Zeros := InitCommit(), Ones := feat], map["master" := Zeros, "feat" := Ones], "master", map[], [], None, false),
          map[])
  }

  /** `merge feat` from that state is a fast-forward, so the fault is reachable. */
  lemma FastForwardReachable(now: string)
    ensures Wf(WitnessHasher(), FeatureAhead().repo)
    ensures PlanMerge(WitnessHasher(), FeatureAhead(), "feat") == FastForward(Ones)
    ensures MergeAsWritten(WitnessHasher(), now, FeatureAhead(), "feat").Exit?
  {
    var h := WitnessHasher();
    var s := FeatureAhead();
    var store := s.repo.commits;
    assert CommitId(h, InitCommit()) == Zeros;
    assert CommitId(h, store[Ones]) == Ones;
    assert StoreOk(store);
    var feat := store[Ones];
    assert IsParent(store, Zeros, feat);
    AncestryExact(store, Zeros);
    assert FindSplit(store, Zeros, feat) == Some(Zeros);
    assert !IsParent(store, Ones, InitCommit());
    FastForwardLost(h, now, s, "feat");
  }

  // ------------------------------- a tip at the root has no split point

  /**
    The checks of `merge` as written: the split search only accepts a
    proper first-parent ancestor of the tip, so a tip that HEAD descends from
    without one in between finds none, and the split's file map is read
    through a null reference.
   */
  function PlanMergeAsWritten(h: Hasher, s: State, branch: string): (p: Plan)
    requires Wf(h, s.repo)
    ensures p != PlanMerge(h, s, branch) ==> p == Refuse(NoSplitPoint) && PlanMerge(h, s, branch) == Refuse(GivenIsAncestor)
  {
    var r := s.repo;
    if r.head == branch then Refuse(MergeWithSelf)
    else if r.staging != map[] || r.removals != [] then Refuse(UncommittedChanges)
    else if branch !in r.branches then Refuse(BranchDoesNotExist)
    else
      var tipId := r.branches[branch];
      var tip := r.commits[tipId];
      var head := GetHead(r);
      match FindSplit(r.commits, HeadId(r), tip)
      case None => Refuse(NoSplitPoint)
      case Some(splitId) =>
        if !UntrackedClear(head.files, tip.files, s.wd) then Refuse(UntrackedInTheWay)
        else if IsParent(r.commits, tipId, head) then Refuse(GivenIsAncestor)
        else if CommitId(h, r.commits[splitId]) == CommitId(h, head) then FastForward(tipId)
        else Reconcile(splitId, tipId)
  }

  /** `init; branch b; add a; commit`: `b` stays at the root, `master` moves past it. */
  function MasterAhead(): State {
    var next := Commit("now", "add a", Some(Zeros), None, false, "master", map["a" := MakeBlob(WitnessHasher(), "a", "x")], 1);
    State(Repo(map[Zeros := InitCommit(), Ones := next], map["master" := Ones, "b" := Zeros], "master", map[], [], None, false),
          map["a" := "x"])
  }

  /**
    `merge b` from there dies on the null split point as written, where the
    corrected checks report that the given branch is an ancestor.
   */
  lemma RootTipHasNoSplit()
    ensures Wf(WitnessHasher(), MasterAhead().repo)
    ensures PlanMergeAsWritten(WitnessHasher(), MasterAhead(), "b") == Refuse(NoSplitPoint)
    ensures PlanMerge(WitnessHasher(), MasterAhead(), "b") == Refuse(GivenIsAncestor)
  {
    var h := WitnessHasher();
    var s := MasterAhead();
    var store := s.repo.commits;
    assert CommitId(h, InitCommit()) == Zeros;
    assert CommitId(h, store[Ones]) == Ones;
    assert StoreOk(store);
    var root := store[Zeros];
    assert !IsParent(store, Ones, root) && !IsParent(store, Zeros, root);
    assert FindSplit(store, Ones, root).None?;
    assert IsParent(store, Zeros, store[Ones]);
  }

  // ------------------------------------- a repeated `rm` outlives `add`

  /** The position of the first `f` in `s`. */
  function FirstIndex(s: seq<string>, f: string): (i: nat)
    requires f in s
    ensures i < |s| && s[i] == f && f !in s[..i]
  {
    if s[0] == f then 0
    else
      var j := FirstIndex(s[1..], f);
      assert s[..j + 1] == [s[0]] + s[1..][..j];
      j + 1
  }

  /** `LinkedList.remove(Object)`: only the first occurrence goes. */
  function RemoveFirst(s: seq<string>, f: string): (r: seq<string>)
    ensures f !in s ==> r == s
    ensures f in s ==> var i := FirstIndex(s, f); r == s[..i] + s[i + 1..]
    ensures forall x | x in r :: x in s
  {
    if s == [] then []
    else if s[0] == f then s[1..]
    else
      var rest := RemoveFirst(s[1..], f);
      assert f in s[1..] ==> (var j := FirstIndex(s[1..], f);
        [s[0]] + rest == s[..j + 1] + s[j + 2..]);
      [s[0]] + rest
  }

  /** `add(f)` as written: the removal list loses one occurrence of `f`. */
  function AddAsWritten(h: Hasher, s: State, f: string): (o: Outcome)
    requires Linked(s.repo)
    ensures o.Exit? <==> Add(h, s, f).Exit?
    ensures o.Exit? ==> o == Add(h, s, f)
    ensures o.Ok? ==> o.st.wd == s.wd
    ensures o.Ok? ==> o.st.repo == s.repo.(staging := Add(h, s, f).st.repo.staging, removals := RemoveFirst(s.repo.removals, f))
  {
    if f !in s.wd then Exit(FileDoesNotExist, s.wd)
    else
      var r := s.repo;
      Ok(s.(repo := r.(staging := StageFile(h, GetHead(r), r.staging, f, s.wd[f]),
                       removals := RemoveFirst(r.removals, f))))
  }

  /**
    `rm f` twice on a tracked file puts it on the removal list twice;
    re-creating the file and running `add f` then leaves it marked for
    removal, so the next commit drops a file the user has just added back.
    The corrected `Add` clears it.
   */
  lemma RmTwiceOutlivesAdd(h: Hasher, s: State, f: string, content: string)
    requires Linked(s.repo) && s.repo.removals == [] && s.repo.staging == map[]
    requires Tracking(GetHead(s.repo), f)
    ensures var once := Rm(s, f).st;
      var twice := Rm(once, f).st;
      var back := twice.(wd := twice.wd[f := content]);
      && Rm(s, f).Ok? && Rm(once, f).Ok?
      && twice.repo.removals == [f, f]
      && AddAsWritten(h, back, f).Ok? && f in AddAsWritten(h, back, f).st.repo.removals
      && Add(h, back, f).Ok? && f !in Add(h, back, f).st.repo.removals
  {
    var once := Rm(s, f).st;
    assert once.repo.removals == [f];
    var twice := Rm(once, f).st;
    assert twice.repo.removals == [f] + [f];
  }

  // ---------------------------------- removing while iterating in `merge`

  /** How a for-each loop over a Java LinkedList ends. */
  datatype LoopEnd = Completed(visited: seq<string>) | ConcurrentModification(visited: seq<string>)

  /**
    A for-each over a LinkedList whose body removes the current element when
    it is in `drop`: the iterator's `hasNext` is `nextIndex < size`, and its
    `next` throws once the list was changed behind its back. `visited` are the
    elements the body ran on.
   */
  function ForEachRemoving(list: seq<string>, next: nat, modified: bool, drop: set<string>, visited: seq<string>): (e: LoopEnd)
    ensures |visited| <= |e.visited| && e.visited[..|visited|] == visited
    ensures forall i | |visited| <= i < |e.visited| :: e.visited[i] in list
    decreases if next < |list| then |list| - next else 0
  {
    if next >= |list| then Completed(visited)
    else if modified then ConcurrentModification(visited)
    else
      var x := list[next];
      if x in drop then ForEachRemoving(RemoveFirst(list, x), next + 1, true, drop, visited + [x])
      else ForEachRemoving(list, next + 1, false, drop, visited + [x])
  }

  /**
    The conflict loop over the names HEAD added since the split, as written:
    every conflicting name is removed from the list being iterated.
   */
  function ConflictLoopAsWritten(names: seq<string>, conflicting: set<string>): LoopEnd {
    ForEachRemoving(names, 0, false, conflicting, [])
  }

  /**
    A conflicting name with two or more names after it makes the loop throw
    (the merge dies before saving); one with exactly one name after it makes
    the loop skip that name, whose own conflict is then never written.
   */
  lemma ConflictLoopFails()
    ensures ConflictLoopAsWritten(["a", "b", "c"], {"a"}) == ConcurrentModification(["a"])
    ensures ConflictLoopAsWritten(["a", "b"], {"a", "b"}) == Completed(["a"])
  {
    assert RemoveFirst(["a", "b", "c"], "a") == ["b", "c"];
    assert RemoveFirst(["a", "b"], "a") == ["b"];
  }

  /** The evidently intended loop: run the body on every name of an unchanged list. */
  function ConflictLoop(names: seq<string>): LoopEnd {
    ForEachRemoving(names, 0, false, {}, [])
  }

  /** Iterating without removing visits the whole list in order and finishes. */
  lemma {:induction false} ForEachKeepingVisitsAll(list: seq<string>, next: nat, visited: seq<string>)
    requires next <= |list|
    ensures ForEachRemoving(list, next, false, {}, visited) == Completed(visited + list[next..])
    decreases |list| - next
  {
    if next < |list| {
      ForEachKeepingVisitsAll(list, next + 1, visited + [list[next]]);
      assert visited + [list[next]] + list[next + 1..] == visited + list[next..];
    } else {
      assert list[next..] == [];
    }
  }

  /** The intended loop reaches every name, conflicting or not. */
  lemma ConflictLoopVisitsAll(names: seq<string>)
    ensures ConflictLoop(names) == Completed(names)
  {
    ForEachKeepingVisitsAll(names, 0, []);
    assert names[0..] == names;
  }
}

=== FILE: history.dfy ===
/**
  History queries over the commit store: the first-parent ancestor test
  `isParent` and the breadth-first split-point search `bfsFindSplit`.
 */
module History {
  import opened Wrappers
  import opened Objects

  /** `_allCommit`: every commit, keyed by its id. */
  type Store = map<Digest, Commit>

  /** Both parent ids of `c`, when present, are stored commits of a lower generation. */
  predicate ParentsBelow(store: Store, c: Commit) {
    && (c.parent.Some? ==> c.parent.value in store && store[c.parent.value].gen < c.gen)
    && (c.parent2.Some? ==> c.parent2.value in store && store[c.parent2.value].gen < c.gen)
  }

  /** The store is closed under parent links and acyclic (generations fall along every link). */
  predicate StoreOk(store: Store) {
    forall k | k in store :: ParentsBelow(store, store[k])
  }

  /** The parent ids a commit records, first parent first. */
  function ParentIds(c: Commit): (ps: seq<Digest>)
    ensures forall p :: p in ps <==> c.parent == Some(p) || c.parent2 == Some(p)
  {
    (if c.parent.Some? then [c.parent.value] else []) + (if c.parent2.Some? then [c.parent2.value] else [])
  }

  /** `d` records `p` as its first or second parent. */
  predicate NamesParent(d: Commit, p: Digest) {
    d.parent == Some(p) || d.parent2 == Some(p)
  }

  /**
    `isParent(p, child)`: walk the first-parent chain from `child` (itself
    included) and answer whether some commit on it names `p` as a parent.
   */
  function IsParent(store: Store, p: Digest, child: Commit): bool
    requires StoreOk(store) && ParentsBelow(store, child)
    decreases child.gen
  {
    || NamesParent(child, p)
    || (child.parent.Some? && IsParent(store, p, store[child.parent.value]))
  }

  /** The first-parent chain of `c`: `c`, its first parent, that commit's first parent, ... down to the root. */
  function FirstParentChain(store: Store, c: Commit): (chain: seq<Commit>)
    requires StoreOk(store) && ParentsBelow(store, c)
    ensures |chain| >= 1 && chain[0] == c
    ensures forall i | 0 <= i < |chain| :: ParentsBelow(store, chain[i])
    ensures forall i | 0 <= i < |chain| - 1 ::
              chain[i].parent.Some? && chain[i].parent.value in store && store[chain[i].parent.value] == chain[i + 1]
    ensures chain[|chain| - 1].parent.None?
    decreases c.gen
  {
    match c.parent
    case None => [c]
    case Some(p) => [c] + FirstParentChain(store, store[p])
  }

  /** Some commit of `chain` names `p` as its first or second parent. */
  predicate SomeNames(chain: seq<Commit>, p: Digest) {
    exists i | 0 <= i < |chain| :: NamesParent(chain[i], p)
  }

  lemma SomeNamesCons(c: Commit, rest: seq<Commit>, p: Digest)
    ensures SomeNames([c] + rest, p) <==> NamesParent(c, p) || SomeNames(rest, p)
  {
    var chain := [c] + rest;
    if NamesParent(c, p) {
      assert chain[0] == c;
    }
    if SomeNames(rest, p) {
      var i :| 0 <= i < |rest| && NamesParent(rest[i], p);
      assert chain[i + 1] == rest[i];
    }
    if SomeNames(chain, p) {
      var i :| 0 <= i < |chain| && NamesParent(chain[i], p);
      if i > 0 {
        assert rest[i - 1] == chain[i];
      }
    }
  }

  /**
    `isParent` holds exactly when some commit on the first-parent chain names
    `p` as its first or second parent; second-parent links are never followed.
   */
  lemma {:induction false} IsParentOnChain(store: Store, p: Digest, c: Commit)
    requires StoreOk(store) && ParentsBelow(store, c)
    ensures IsParent(store, p, c) <==> SomeNames(FirstParentChain(store, c), p)
    decreases c.gen
  {
    var chain := FirstParentChain(store, c);
    if c.parent.None? {
      assert chain == [c];
      SomeNamesCons(c, [], p);
      assert SomeNames([], p) == false;
    } else {
      var q := c.parent.value;
      var rest := FirstParentChain(store, store[q]);
      assert chain == [c] + rest;
      IsParentOnChain(store, p, store[q]);
      SomeNamesCons(c, rest, p);
    }
  }

  /** Whatever `isParent` finds is a stored commit of a lower generation than the child. */
  lemma {:induction false} IsParentBelow(store: Store, p: Digest, c: Commit)
    requires StoreOk(store) && ParentsBelow(store, c)
    requires IsParent(store, p, c)
    ensures p in store && store[p].gen < c.gen
    decreases c.gen
  {
    if !NamesParent(c, p) {
      IsParentBelow(store, p, store[c.parent.value]);
    }
  }

  /** In a well-formed store no commit is `isParent` of itself. */
  lemma NotOwnParent(store: Store, k: Digest)
    requires StoreOk(store) && k in store
    ensures !IsParent(store, k, store[k])
  {
    if IsParent(store, k, store[k]) {
      IsParentBelow(store, k, store[k]);
    }
  }

  /** `a` is `x` or an ancestor of `x` through first and second parent links. */
  predicate Reach(store: Store, x: Digest, a: Digest)
    requires StoreOk(store) && x in store
    decreases store[x].gen
  {
    || a == x
    || (store[x].parent.Some? && Reach(store, store[x].parent.value, a))
    || (store[x].parent2.Some? && Reach(store, store[x].parent2.value, a))
  }

  /** Ancestry is closed under taking a parent. */
  lemma {:induction false} ReachParent(store: Store, root: Digest, x: Digest, p: Digest)
    requires StoreOk(store) && root in store && x in store
    requires Reach(store, root, x) && p in ParentIds(store[x])
    ensures p in store && Reach(store, root, p)
    decreases store[root].gen
  {
    assert ParentsBelow(store, store[x]);
    if x == root {
      assert Reach(store, p, p);
    } else if store[root].parent.Some? && Reach(store, store[root].parent.value, x) {
      ReachParent(store, store[root].parent.value, x, p);
    } else {
      ReachParent(store, store[root].parent2.value, x, p);
    }
  }

  /** Every parent id of every stored member of `s` is in `s`. */
  predicate Closed(store: Store, s: set<Digest>) {
    forall y | y in s && y in store :: forall p | p in ParentIds(store[y]) :: p in s
  }

  /** A parent-closed set holding `root` holds all of `root`'s ancestors. */
  lemma {:induction false} ClosedHoldsAncestors(store: Store, s: set<Digest>, root: Digest, a: Digest)
    requires StoreOk(store) && root in store && Closed(store, s) && root in s
    requires Reach(store, root, a)
    ensures a in s
    decreases store[root].gen
  {
    assert ParentsBelow(store, store[root]);
    if a != root {
      if store[root].parent.Some? && Reach(store, store[root].parent.value, a) {
        assert store[root].parent.value in ParentIds(store[root]);
        ClosedHoldsAncestors(store, s, store[root].parent.value, a);
      } else {
        assert store[root].parent2.value in ParentIds(store[root]);
        ClosedHoldsAncestors(store, s, store[root].parent2.value, a);
      }
    }
  }

  /**
    The breadth-first walk of `bfsFindSplit`: pop the queue front, emit it,
    enqueue its first then second parent. An id already emitted is skipped,
    which keeps the order of first occurrences.
   */
  function Bfs(store: Store, queue: seq<Digest>, visited: set<Digest>): (order: seq<Digest>)
    requires StoreOk(store) && forall q | q in queue :: q in store
    ensures forall x | x in order :: x in store && x !in visited
    ensures forall i, j | 0 <= i < j < |order| :: order[i] != order[j]
    decreases store.Keys - visited, |queue|
  {
    if queue == [] then []
    else
      var x := queue[0];
      if x in visited then Bfs(store, queue[1..], visited)
      else
        assert ParentsBelow(store, store[x]);
        [x] + Bfs(store, queue[1..] + ParentIds(store[x]), visited + {x})
  }

  /** Everything the walk emits is an ancestor of `root` when everything queued is. */
  lemma {:induction false} BfsSound(store: Store, root: Digest, queue: seq<Digest>, visited: set<Digest>)
    requires StoreOk(store) && root in store && forall q | q in queue :: q in store
    requires forall q | q in queue :: Reach(store, root, q)
    ensures forall x | x in Bfs(store, queue, visited) :: Reach(store, root, x)
    decreases store.Keys - visited, |queue|
  {
    if queue != [] {
      var x := queue[0];
      if x in visited {
        BfsSound(store, root, queue[1..], visited);
      } else {
        assert ParentsBelow(store, store[x]);
        forall p | p in ParentIds(store[x]) ensures Reach(store, root, p) {
          ReachParent(store, root, x, p);
        }
        BfsSound(store, root, queue[1..] + ParentIds(store[x]), visited + {x});
      }
    }
  }

  /** The walk ends with every queued id visited and the visited set closed under parents. */
  lemma {:induction false} BfsComplete(store: Store, queue: seq<Digest>, visited: set<Digest>)
    requires StoreOk(store) && forall q | q in queue :: q in store
    requires forall v | v in visited && v in store :: forall p | p in ParentIds(store[v]) :: p in visited || p in queue
    ensures var s := visited + set x | x in Bfs(store, queue, visited);
      Closed(store, s) && forall q | q in queue :: q in s
    decreases store.Keys - visited, |queue|
  {
    var out := Bfs(store, queue, visited);
    if queue == [] {
      assert out == [];
      assert visited + (set x | x in out) == visited;
    } else {
      var x := queue[0];
      if x in visited {
        BfsComplete(store, queue[1..], visited);
      } else {
        assert ParentsBelow(store, store[x]);
        var q' := queue[1..] + ParentIds(store[x]);
        var rest := Bfs(store, q', visited + {x});
        assert out == [x] + rest;
        assert visited + (set y | y in out) == (visited + {x}) + (set y | y in rest);
        BfsComplete(store, q', visited + {x});
      }
    }
  }

  /** `bfsFindSplit`'s list: HEAD first, then its ancestors in breadth-first order. */
  function Ancestry(store: Store, head: Digest): (order: seq<Digest>)
    requires StoreOk(store) && head in store
    ensures forall x | x in order :: x in store
    ensures forall i, j | 0 <= i < j < |order| :: order[i] != order[j]
  {
    Bfs(store, [head], {})
  }

  /** The walk starts at HEAD and enumerates exactly HEAD and its ancestors. */
  lemma AncestryExact(store: Store, head: Digest)
    requires StoreOk(store) && head in store
    ensures |Ancestry(store, head)| > 0 && Ancestry(store, head)[0] == head
    ensures forall a :: a in Ancestry(store, head) <==> Reach(store, head, a)
  {
    var order := Ancestry(store, head);
    BfsSound(store, head, [head], {});
    BfsComplete(store, [head], {});
    var s := {} + set x | x in order;
    forall a | Reach(store, head, a) ensures a in order {
      ClosedHoldsAncestors(store, s, head, a);
    }
  }

  // ------------------------------------------------ breadth-first order

  /** The ids reachable from `head` by fewer than `n` parent links. */
  function Near(store: Store, head: Digest, n: nat): set<Digest>
    decreases n
  {
    if n == 0 then {}
    else {head} + set x, p | x in Near(store, head, n - 1) && x in store && p in ParentIds(store[x]) :: p
  }

  /** Allowing more links never loses an id. */
  lemma {:induction false} NearGrows(store: Store, head: Digest, m: nat, n: nat)
    requires m <= n
    ensures Near(store, head, m) <= Near(store, head, n)
    decreases n
  {
    if m < n {
      NearGrows(store, head, m, n - 1);
      if n - 1 > 0 {
        NearGrows(store, head, n - 2, n - 1);
      }
    }
  }

  /** Everything near `head` is an ancestor of it. */
  lemma {:induction false} NearReach(store: Store, head: Digest, n: nat, a: Digest)
    requires StoreOk(store) && head in store && a in Near(store, head, n)
    ensures a in store && Reach(store, head, a)
    decreases n
  {
    if a != head {
      var x :| x in Near(store, head, n - 1) && x in store && a in ParentIds(store[x]);
      NearReach(store, head, n - 1, x);
      ReachParent(store, head, x, a);
    }
  }

  /** The ids of `s` not in `visited`, each at its first occurrence. */
  function Fresh(s: seq<Digest>, visited: set<Digest>): (r: seq<Digest>)
    ensures forall x :: x in r <==> x in s && x !in visited
    decreases |s|
  {
    if s == [] then []
    else if s[0] in visited then Fresh(s[1..], visited)
    else [s[0]] + Fresh(s[1..], visited + {s[0]})
  }

  /** The ids of `s`, as a set. */
  function Elems(s: seq<Digest>): (e: set<Digest>)
    ensures forall x :: x in e <==> x in s
  {
    set x | x in s
  }

  /** The parent ids of every commit of `layer`, in order. */
  function Parents(store: Store, layer: seq<Digest>): (ps: seq<Digest>)
    requires forall x | x in layer :: x in store
    ensures forall p :: p in ps <==> exists x | x in layer :: p in ParentIds(store[x])
  {
    if layer == [] then []
    else
      var rest := Parents(store, layer[1..]);
      assert forall x | x in layer :: x == layer[0] || x in layer[1..];
      ParentIds(store[layer[0]]) + rest
  }

  /** `Parents` of a layer with a commit in front lists that commit's parents first. */
  lemma ParentsCons(store: Store, x: Digest, rest: seq<Digest>)
    requires x in store && forall y | y in rest :: y in store
    ensures Parents(store, [x] + rest) == ParentIds(store[x]) + Parents(store, rest)
  {
    assert ([x] + rest)[1..] == rest;
  }

  /**
    The walk drains a queue front `a` before anything queued behind it: it
    lists the fresh ids of `a`, then walks the rest of the queue followed by
    their parents.
   */
  lemma {:induction false} BfsDrains(store: Store, a: seq<Digest>, b: seq<Digest>, visited: set<Digest>)
    requires StoreOk(store) && (forall q | q in a :: q in store) && forall q | q in b :: q in store
    ensures var layer := Fresh(a, visited);
      Bfs(store, a + b, visited) == layer + Bfs(store, b + Parents(store, layer), visited + Elems(layer))
    decreases |a|
  {
    if a == [] {
      assert a + b == b;
      assert Fresh(a, visited) == [] && Parents(store, []) == [] && Elems([]) == {};
      assert b + [] == b && visited + {} == visited;
    } else {
      var x := a[0];
      assert (a + b)[0] == x && (a + b)[1..] == a[1..] + b;
      if x in visited {
        BfsDrains(store, a[1..], b, visited);
      } else {
        assert ParentsBelow(store, store[x]);
        var ps := ParentIds(store[x]);
        BfsDrains(store, a[1..], b + ps, visited + {x});
        BfsDrainsFresh(store, a, b, visited);
      }
    }
  }

  /** Sequence steps of the walk, kept apart so that the walk's proofs stay small. */
  lemma QueueShift(a: seq<Digest>, b: seq<Digest>, c: seq<Digest>)
    requires a != []
    ensures (a + b)[0] == a[0] && (a + b)[1..] + c == a[1..] + (b + c)
  {
    assert (a + b)[1..] == a[1..] + b;
  }

  lemma Assoc(b: seq<Digest>, c: seq<Digest>, d: seq<Digest>)
    ensures (b + c) + d == b + (c + d)
  {
  }

  lemma ElemsCons(visited: set<Digest>, x: Digest, rest: seq<Digest>)
    ensures visited + {x} + Elems(rest) == visited + Elems([x] + rest)
  {
  }

  /** The walk lists a fresh queue front and queues its parents. */
  lemma BfsStep(store: Store, queue: seq<Digest>, visited: set<Digest>)
    requires StoreOk(store) && (forall q | q in queue :: q in store) && queue != [] && queue[0] !in visited
    ensures ParentsBelow(store, store[queue[0]])
    ensures Bfs(store, queue, visited) == [queue[0]] + Bfs(store, queue[1..] + ParentIds(store[queue[0]]), visited + {queue[0]})
  {
    assert ParentsBelow(store, store[queue[0]]);
  }

  /** The step of `BfsDrains` where the front of `a` is fresh, given the claim for the rest of `a`. */
  lemma BfsDrainsFresh(store: Store, a: seq<Digest>, b: seq<Digest>, visited: set<Digest>)
    requires StoreOk(store) && (forall q | q in a :: q in store) && forall q | q in b :: q in store
    requires a != [] && a[0] !in visited
    requires var x := a[0];
      var ps := ParentIds(store[x]);
      var rest := Fresh(a[1..], visited + {x});
      Bfs(store, a[1..] + (b + ps), visited + {x}) == rest + Bfs(store, (b + ps) + Parents(store, rest), visited + {x} + Elems(rest))
    ensures var layer := Fresh(a, visited);
      Bfs(store, a + b, visited) == layer + Bfs(store, b + Parents(store, layer), visited + Elems(layer))
  {
    var x := a[0];
    assert ParentsBelow(store, store[x]);
    var ps := ParentIds(store[x]);
    var rest := Fresh(a[1..], visited + {x});
    var layer := Fresh(a, visited);
    var tail := Bfs(store, (b + ps) + Parents(store, rest), visited + {x} + Elems(rest));
    assert layer == [x] + rest;
    BfsStep(store, a + b, visited);
    QueueShift(a, b, ps);
    ParentsCons(store, x, rest);
    Assoc(b, ps, Parents(store, rest));
    Assoc([x], rest, tail);
    ElemsCons(visited, x, rest);
  }

  /** `order` lists every id no later than any id farther from `head`. */
  ghost predicate ByDistance(store: Store, head: Digest, order: seq<Digest>) {
    forall i, j, m: nat | 0 <= i < j < |order| && order[j] in Near(store, head, m) :: order[i] in Near(store, head, m)
  }

  /** Visiting one more layer of the walk extends the nearby ids by one link. */
  lemma {:induction false} NearNext(store: Store, head: Digest, n: nat, layer: seq<Digest>)
    requires StoreOk(store) && forall x | x in layer :: x in store
    requires Near(store, head, n) + Elems(layer) == Near(store, head, n + 1)
    ensures Near(store, head, n + 1) + Elems(Parents(store, layer)) == Near(store, head, n + 2)
  {
    var next := Parents(store, layer);
    NearGrows(store, head, n + 1, n + 2);
    forall p | p in next ensures p in Near(store, head, n + 2) {
      var x :| x in layer && p in ParentIds(store[x]);
      assert x in Near(store, head, n + 1);
    }
    forall p | p in Near(store, head, n + 2) ensures p in Near(store, head, n + 1) || p in next {
      if p != head {
        var x :| x in Near(store, head, n + 1) && x in store && p in ParentIds(store[x]);
        if x !in layer {
          assert x in Near(store, head, n);
          assert p in Near(store, head, n + 1);
        }
      }
    }
  }

  /** A layer at distance `n` ahead of a walk farther out keeps the listing by distance. */
  lemma ByDistanceConcat(store: Store, head: Digest, n: nat, layer: seq<Digest>, rest: seq<Digest>)
    requires forall x | x in layer :: x in Near(store, head, n + 1) && x !in Near(store, head, n)
    requires forall x | x in rest :: x !in Near(store, head, n + 1)
    requires ByDistance(store, head, rest)
    ensures ByDistance(store, head, layer + rest)
  {
    var out := layer + rest;
    forall i, j, m: nat | 0 <= i < j < |out| && out[j] in Near(store, head, m)
      ensures out[i] in Near(store, head, m)
    {
      if j < |layer| {
        assert out[j] == layer[j] && out[i] == layer[i];
        assert layer[i] in layer && layer[j] in layer;
        if m <= n {
          NearGrows(store, head, m, n);
        } else {
          NearGrows(store, head, n + 1, m);
        }
      } else if i < |layer| {
        assert out[j] == rest[j - |layer|] && out[i] == layer[i];
        assert layer[i] in layer && rest[j - |layer|] in rest;
        if m <= n + 1 {
          NearGrows(store, head, m, n + 1);
        } else {
          NearGrows(store, head, n + 1, m);
        }
      } else {
        assert out[j] == rest[j - |layer|] && out[i] == rest[i - |layer|];
        assert rest[i - |layer|] in Near(store, head, m);
      }
    }
  }

  /** Together with the visited ids, a layer's fresh ids cover the whole layer. */
  lemma FreshCovers(queue: seq<Digest>, visited: set<Digest>)
    ensures visited + Elems(Fresh(queue, visited)) == visited + Elems(queue)
  {
  }

  lemma NoEmpty(s: seq<Digest>)
    ensures s + [] == s && [] + s == s
  {
  }

  /** One layer of the walk from distance `n`: what it lists, and where the walk resumes. */
  lemma BfsLayer(store: Store, head: Digest, queue: seq<Digest>, visited: set<Digest>, n: nat)
    requires StoreOk(store) && forall q | q in queue :: q in store
    requires visited == Near(store, head, n)
    requires visited + Elems(queue) == Near(store, head, n + 1)
    ensures var layer := Fresh(queue, visited);
      var next := Parents(store, layer);
      var visited' := visited + Elems(layer);
      && (forall q | q in next :: q in store)
      && Bfs(store, queue, visited) == layer + Bfs(store, next, visited')
      && (forall x | x in layer :: x in Near(store, head, n + 1) && x !in Near(store, head, n))
      && visited' == Near(store, head, n + 1)
      && visited' + Elems(next) == Near(store, head, n + 2)
      && (layer != [] ==> store.Keys - visited' < store.Keys - visited)
  {
    var layer := Fresh(queue, visited);
    var next := Parents(store, layer);
    var visited' := visited + Elems(layer);
    NoEmpty(queue);
    NoEmpty(next);
    BfsDrains(store, queue, [], visited);
    FreshCovers(queue, visited);
    NearNext(store, head, n, layer);
    if layer != [] {
      assert layer[0] in store.Keys - visited && layer[0] !in store.Keys - visited';
    }
  }

  /**
    Walking from the ids at distance `n` with every nearer id visited lists
    ids by nondecreasing distance.
   */
  lemma {:induction false} BfsByDistance(store: Store, head: Digest, queue: seq<Digest>, visited: set<Digest>, n: nat)
    requires StoreOk(store) && forall q | q in queue :: q in store
    requires visited == Near(store, head, n)
    requires visited + Elems(queue) == Near(store, head, n + 1)
    ensures ByDistance(store, head, Bfs(store, queue, visited))
    decreases store.Keys - visited, |queue|
  {
    var layer := Fresh(queue, visited);
    var next := Parents(store, layer);
    var visited' := visited + Elems(layer);
    BfsLayer(store, head, queue, visited, n);
    if layer == [] {
      assert next == [] && Bfs(store, next, visited') == [];
    } else {
      BfsByDistance(store, head, next, visited', n + 1);
      ByDistanceConcat(store, head, n, layer, Bfs(store, next, visited'));
    }
  }

  /** HEAD's ancestry is listed by nondecreasing distance from HEAD. */
  lemma AncestryByDistance(store: Store, head: Digest)
    requires StoreOk(store) && head in store
    ensures ByDistance(store, head, Ancestry(store, head))
  {
    assert Near(store, head, 1) == {head};
    assert {} + Elems([head]) == {head};
    BfsByDistance(store, head, [head], {}, 0);
  }

  /** The first id of `order` that `isParent` of `tip`, or None. */
  function FirstParentOf(store: Store, order: seq<Digest>, tip: Commit): (r: Option<Digest>)
    requires StoreOk(store) && ParentsBelow(store, tip)
    ensures r.None? <==> forall x | x in order :: !IsParent(store, x, tip)
    ensures r.Some? ==> r.value in order && IsParent(store, r.value, tip)
    ensures r.Some? ==> exists i | 0 <= i < |order| :: order[i] == r.value && forall j | 0 <= j < i :: !IsParent(store, order[j], tip)
  {
    if order == [] then None
    else if IsParent(store, order[0], tip) then
      assert order[0] in order;
      Some(order[0])
    else
      var r := FirstParentOf(store, order[1..], tip);
      assert r.Some? ==> exists i | 0 <= i < |order| :: order[i] == r.value && forall j | 0 <= j < i :: !IsParent(store, order[j], tip) by {
        if r.Some? {
          var i :| 0 <= i < |order[1..]| && order[1..][i] == r.value && forall j | 0 <= j < i :: !IsParent(store, order[1..][j], tip);
          assert order[i + 1] == r.value;
        }
      }
      r
  }

  lemma SplitOverAncestry(store: Store, head: Digest, tip: Commit)
    requires StoreOk(store) && head in store && ParentsBelow(store, tip)
    ensures var r := FirstParentOf(store, Ancestry(store, head), tip);
      && (r.Some? ==> r.value in store && Reach(store, head, r.value) && IsParent(store, r.value, tip))
      && (r.None? <==> forall a | Reach(store, head, a) :: !IsParent(store, a, tip))
  {
    AncestryExact(store, head);
    var order := Ancestry(store, head);
    var r := FirstParentOf(store, order, tip);
    if r.Some? {
      var w := r.value;
      assert Reach(store, head, w) && IsParent(store, w, tip);
      assert exists a | Reach(store, head, a) :: IsParent(store, a, tip);
    } else {
      forall a | Reach(store, head, a) ensures !IsParent(store, a, tip) {
        assert a in order;
      }
    }
  }

  /**
    `bfsFindSplit(tip)`: the first of HEAD and its ancestors, in breadth-first
    order, that `isParent` of the branch tip; None when there is none.
   */
  function FindSplit(store: Store, head: Digest, tip: Commit): (r: Option<Digest>)
    requires StoreOk(store) && head in store && ParentsBelow(store, tip)
    ensures r.Some? ==> r.value in store && Reach(store, head, r.value) && IsParent(store, r.value, tip)
    ensures r.None? <==> forall a | Reach(store, head, a) :: !IsParent(store, a, tip)
    ensures r.Some? ==> var order := Ancestry(store, head);
      exists i | 0 <= i < |order| :: order[i] == r.value && forall j | 0 <= j < i :: !IsParent(store, order[j], tip)
  {
    SplitOverAncestry(store, head, tip);
    FirstParentOf(store, Ancestry(store, head), tip)
  }

  /**
    The split point is a nearest one: no ancestor of HEAD that is a parent of
    the tip lies fewer links from HEAD than the split point does.
   */
  lemma SplitIsNearest(store: Store, head: Digest, tip: Commit, a: Digest, m: nat)
    requires StoreOk(store) && head in store && ParentsBelow(store, tip)
    requires a in Near(store, head, m) && IsParent(store, a, tip)
    ensures FindSplit(store, head, tip).Some?
    ensures FindSplit(store, head, tip).value in Near(store, head, m)
  {
    NearReach(store, head, m, a);
    AncestryExact(store, head);
    AncestryByDistance(store, head);
    var order := Ancestry(store, head);
    var r := FindSplit(store, head, tip);
    var i :| 0 <= i < |order| && order[i] == r.value && forall j | 0 <= j < i :: !IsParent(store, order[j], tip);
    var k :| 0 <= k < |order| && order[k] == a;
    if i != k {
      assert i < k;
    }
  }
}

=== FILE: merge.dfy ===
/**
  The merge engine of `Repo.merge`: the failure checks of `mergeCheck` and
  `merge`, the split point, the per-name reconciliation of `mergeForLoop`
  and the two loops after it, the conflict text of `mergeConflict`, and the
  final two-parent commit.
 */
module Merging {
  import opened Wrappers
  import opened Objects
  import opened History
  import opened Repository

  // ---------------------------------------------------------------- one name

  /** What the merge does to one file name. */
  datatype Action =
    | Keep                                               // leave HEAD's version alone
    | TakeBranch                                         // check out the branch version and `add` it
    | Remove                                             // `rm` the name
    | Conflict(head: Option<string>, branch: Option<string>)  // write conflict markers and `add`
    | AddBranch                                          // check out the branch version and stage its blob

  function Content(b: Option<Blob>): Option<string> {
    match b
    case None => None
    case Some(blob) => Some(blob.content)
  }

  function Lookup(files: map<string, Blob>, f: string): Option<Blob> {
    if f in files then Some(files[f]) else None
  }

  /**
    The case analysis of `mergeForLoop` (names in the split point) and the
    loops after it (names new since the split), comparing contents.
   */
  function Classify(split: Option<Blob>, head: Option<Blob>, branch: Option<Blob>): Action {
    match (split, head, branch)
    case (Some(s), Some(h), Some(b)) =>
      if s.content == h.content && s.content != b.content then TakeBranch
      else if s.content != h.content && s.content != b.content && h.content != b.content then
        Conflict(Some(h.content), Some(b.content))
      else Keep
    case (Some(s), Some(h), None) =>
      if s.content == h.content then Remove else Conflict(Some(h.content), None)
    case (Some(s), None, Some(b)) =>
      if b.content != s.content then Conflict(None, Some(b.content)) else Keep
    case (Some(_), None, None) => Keep
    case (None, Some(h), Some(b)) =>
      if h.content != b.content then Conflict(Some(h.content), Some(b.content)) else Keep
    case (None, None, Some(_)) => AddBranch
    case (None, _, None) => Keep
  }

  const ConflictHead: string := "<<<<<<< HEAD\n"
  const ConflictSeparator: string := "=======\n"
  const ConflictEnd: string := ">>>>>>>\n"

  /** The file `mergeConflict` writes; an absent side contributes nothing. */
  function ConflictText(head: Option<string>, branch: Option<string>): (t: string)
    ensures t == ConflictHead + head.GetOr("") + ConflictSeparator + branch.GetOr("") + ConflictEnd
    ensures |t| == 29 + |head.GetOr("")| + |branch.GetOr("")|
    ensures t[..13] == "<<<<<<< HEAD\n" && t[|t| - 8..] == ">>>>>>>\n"
  {
    ConflictHead + head.GetOr("") + ConflictSeparator + branch.GetOr("") + ConflictEnd
  }

  /** The outcome a three-way merge gives one name: a content (None for absent) or a clash of two. */
  datatype Resolution = Take(content: Option<string>) | Clash(head: Option<string>, branch: Option<string>)

  /**
    The textbook three-way rule on contents, independent of the source: the
    same on both sides wins; a side equal to the base yields to the other;
    otherwise the two sides clash.
   */
  function ThreeWay(base: Option<string>, head: Option<string>, branch: Option<string>): Resolution {
    if head == branch then Take(head)
    else if base == head then Take(branch)
    else if base == branch then Take(head)
    else Clash(head, branch)
  }

  /** The resolution an action gives its name. */
  function Resolve(a: Action, head: Option<Blob>, branch: Option<Blob>): Resolution {
    match a
    case Keep => Take(Content(head))
    case TakeBranch => Take(Content(branch))
    case AddBranch => Take(Content(branch))
    case Remove => Take(None)
    case Conflict(x, y) => Clash(x, y)
  }

  /**
    The source's case table is exactly the textbook three-way merge: for
    every split, HEAD and branch version of a name, the action it picks
    resolves the name the way `ThreeWay` does.
   */
  lemma ClassifyIsThreeWay(split: Option<Blob>, head: Option<Blob>, branch: Option<Blob>)
    ensures Resolve(Classify(split, head, branch), head, branch) == ThreeWay(Content(split), Content(head), Content(branch))
  {
  }

  /**
    The source leaves a name alone exactly when the three-way rule resolves
    it to what HEAD already has: every other action changes the name.
   */
  lemma KeepIsResolvedToHead(split: Option<Blob>, head: Option<Blob>, branch: Option<Blob>)
    ensures Classify(split, head, branch) == Keep <==> ThreeWay(Content(split), Content(head), Content(branch)) == Take(Content(head))
  {
  }

  // ---------------------------------------------------------------- all names

  /** The content a name has in the working directory after its action ran (None: absent). */
  function FileAfter(a: Action, branch: Option<Blob>, current: Option<string>): Option<string> {
    match a
    case Keep => current
    case Remove => None
    case TakeBranch => Content(branch)
    case AddBranch => Content(branch)
    case Conflict(x, y) => Some(ConflictText(x, y))
  }

  /** The staged blob a name has after its action ran (the staging area starts empty). */
  function StagedAfter(h: Hasher, headCommit: Commit, f: string, a: Action, branch: Option<Blob>): Option<Blob> {
    match a
    case Keep => None
    case Remove => None
    case TakeBranch => if branch.Some? then AddDecision(h, headCommit, f, branch.value.content) else None
    case AddBranch => branch
    case Conflict(x, y) => AddDecision(h, headCommit, f, ConflictText(x, y))
  }

  function ActionOf(split: map<string, Blob>, head: map<string, Blob>, branch: map<string, Blob>, f: string): Action {
    Classify(Lookup(split, f), Lookup(head, f), Lookup(branch, f))
  }

  function Current(wd: WorkDir, f: string): Option<string> {
    if f in wd then Some(wd[f]) else None
  }

  function WdEntry(split: map<string, Blob>, head: map<string, Blob>, branch: map<string, Blob>, wd: WorkDir, f: string): Option<string> {
    FileAfter(ActionOf(split, head, branch, f), Lookup(branch, f), Current(wd, f))
  }

  /** The working directory after every name's action. */
  function MergedWd(split: map<string, Blob>, head: map<string, Blob>, branch: map<string, Blob>, wd: WorkDir): (wd': WorkDir)
    ensures forall f | f in wd' :: f in wd || f in split || f in head || f in branch
  {
    map f | f in wd.Keys + split.Keys + head.Keys + branch.Keys && WdEntry(split, head, branch, wd, f).Some? ::
      WdEntry(split, head, branch, wd, f).value
  }

  /** The staging map after every name's action. */
  function MergedStaging(h: Hasher, headCommit: Commit, split: map<string, Blob>, branch: map<string, Blob>): map<string, Blob> {
    var names := split.Keys + headCommit.files.Keys + branch.Keys;
    map f | f in names && StagedAfter(h, headCommit, f, ActionOf(split, headCommit.files, branch, f), Lookup(branch, f)).Some? ::
      StagedAfter(h, headCommit, f, ActionOf(split, headCommit.files, branch, f), Lookup(branch, f)).value
  }

  /** The names the merge `rm`s. */
  function RemovedNames(split: map<string, Blob>, head: map<string, Blob>, branch: map<string, Blob>): set<string> {
    set f | f in split.Keys * head.Keys && ActionOf(split, head, branch, f) == Remove
  }

  /** An enumeration of `s`; it stands for the HashMap order in which the source appends to the removal list. */
  ghost function Enumerate(s: set<string>): (r: seq<string>)
    ensures forall x :: x in r <==> x in s
    decreases s
  {
    if s == {} then [] else var x :| x in s; [x] + Enumerate(s - {x})
  }

  /**
    Name by name, the merged working directory holds what the three-way rule
    resolves, conflicts carry the marker text, names the merge keeps are as
    they were on disk, and no other file changes.
   */
  lemma MergedWdRules(split: map<string, Blob>, head: map<string, Blob>, branch: map<string, Blob>, wd: WorkDir, f: string)
    ensures var wd' := MergedWd(split, head, branch, wd);
      var a := ActionOf(split, head, branch, f);
      var res := ThreeWay(Content(Lookup(split, f)), Content(Lookup(head, f)), Content(Lookup(branch, f)));
      var kept := Take(Content(Lookup(head, f)));
      && (res != kept && res.Take? && res.content.Some? ==> f in wd' && wd'[f] == res.content.value)
      && (res != kept && res.Take? && res.content.None? ==> f !in wd')
      && (res.Clash? ==> f in wd' && wd'[f] == ConflictText(res.head, res.branch))
      && (res == kept ==> (f in wd' <==> f in wd) && (f in wd ==> wd'[f] == wd[f]))
      && (a == Keep <==> res == kept)
  {
    ClassifyIsThreeWay(Lookup(split, f), Lookup(head, f), Lookup(branch, f));
    KeepIsResolvedToHead(Lookup(split, f), Lookup(head, f), Lookup(branch, f));
  }

  /**
    A name in none of the split, HEAD and branch snapshots is on disk after
    the merge exactly when it was before, with the same content.
   */
  lemma MergedWdFrame(split: map<string, Blob>, head: map<string, Blob>, branch: map<string, Blob>, wd: WorkDir)
    ensures var wd' := MergedWd(split, head, branch, wd);
      forall f | f !in split && f !in head && f !in branch :: (f in wd' <==> f in wd) && (f in wd ==> wd'[f] == wd[f])
  {
  }

  /**
    Name by name, the merged staging map stages the branch blob for names
    only the branch added, the `add` decision for taken and conflicting
    names, and nothing for names kept or removed.
   */
  lemma MergedStagingRules(h: Hasher, headCommit: Commit, split: map<string, Blob>, branch: map<string, Blob>, f: string)
    ensures var st := MergedStaging(h, headCommit, split, branch);
      var a := ActionOf(split, headCommit.files, branch, f);
      && (a == AddBranch ==> f in st && st[f] == branch[f])
      && (a == TakeBranch ==> (f in st <==> AddDecision(h, headCommit, f, branch[f].content).Some?))
      && (a.Conflict? ==> (f in st <==> AddDecision(h, headCommit, f, ConflictText(a.head, a.branch)).Some?))
      && (a == Remove ==> f !in st)
      && (f in st ==> (f in branch && st[f] == branch[f]) || st[f].name == f)
      && var H := Lookup(headCommit.files, f);
      var res := ThreeWay(Content(Lookup(split, f)), Content(H), Content(Lookup(branch, f)));
      && (res == Take(Content(H)) || res == Take(None) ==> f !in st)
      && (H.None? && res.Take? && res.content.Some? ==> f in st && st[f] == branch[f])
      && (H.Some? && res.Take? && res.content.Some? && res.content != Content(H) ==>
            (f in st <==> AddDecision(h, headCommit, f, res.content.value).Some?)
            && (f in st ==> st[f] == MakeBlob(h, f, res.content.value)))
      && (res.Clash? ==>
            (f in st <==> AddDecision(h, headCommit, f, ConflictText(res.head, res.branch)).Some?)
            && (f in st ==> st[f] == MakeBlob(h, f, ConflictText(res.head, res.branch))))
  {
    var S := Lookup(split, f);
    var H := Lookup(headCommit.files, f);
    var B := Lookup(branch, f);
    ClassifyIsThreeWay(S, H, B);
    KeepIsResolvedToHead(S, H, B);
  }

  // ---------------------------------------------------------------- the command

  /** How `merge` proceeds once its checks have run. */
  datatype Plan =
    | Refuse(err: Error)
    | FastForward(tip: Digest)
    | Reconcile(split: Digest, tip: Digest)

  /**
    The checks of `mergeCheck` and `merge`, in the source's order, and the
    split point. When no split point exists because the tip is HEAD or one of
    its first-parent ancestors, the merge reports the tip as an ancestor; any
    other missing split point stands for the null dereference at the split's
    file map.
   */
  function PlanMerge(h: Hasher, s: State, branch: string): (p: Plan)
    requires Wf(h, s.repo)
    ensures branch == s.repo.head ==> p == Refuse(MergeWithSelf)
    ensures branch != s.repo.head && (s.repo.staging != map[] || s.repo.removals != []) ==> p == Refuse(UncommittedChanges)
    ensures branch != s.repo.head && s.repo.staging == map[] && s.repo.removals == [] && branch !in s.repo.branches ==>
              p == Refuse(BranchDoesNotExist)
    ensures !p.Refuse? ==>
      && branch != s.repo.head && s.repo.staging == map[] && s.repo.removals == [] && branch in s.repo.branches
      && p.tip == s.repo.branches[branch]
      && UntrackedClear(GetHead(s.repo).files, s.repo.commits[p.tip].files, s.wd)
      && !IsParent(s.repo.commits, p.tip, GetHead(s.repo))
    ensures branch != s.repo.head && s.repo.staging == map[] && s.repo.removals == [] && branch in s.repo.branches
            && IsParent(s.repo.commits, s.repo.branches[branch], GetHead(s.repo)) ==>
              p == Refuse(GivenIsAncestor) || p == Refuse(UntrackedInTheWay)
    ensures branch != s.repo.head && s.repo.staging == map[] && s.repo.removals == [] && branch in s.repo.branches ==>
      var tip := s.repo.branches[branch];
      var head := GetHead(s.repo);
      match FindSplit(s.repo.commits, HeadId(s.repo), s.repo.commits[tip])
      case None =>
        p == if tip == HeadId(s.repo) || IsParent(s.repo.commits, tip, head) then Refuse(GivenIsAncestor) else Refuse(NoSplitPoint)
      case Some(sp) =>
        && (!UntrackedClear(head.files, s.repo.commits[tip].files, s.wd) ==> p == Refuse(UntrackedInTheWay))
        && (UntrackedClear(head.files, s.repo.commits[tip].files, s.wd) && !IsParent(s.repo.commits, tip, head) ==>
              p == if sp == HeadId(s.repo) then FastForward(tip) else Reconcile(sp, tip))
    ensures p == Refuse(UntrackedInTheWay) ==> !UntrackedClear(GetHead(s.repo).files, s.repo.commits[s.repo.branches[branch]].files, s.wd)
    ensures p.FastForward? ==> IsParent(s.repo.commits, HeadId(s.repo), s.repo.commits[p.tip])
    ensures p.Reconcile? ==>
      && p.split in s.repo.commits && p.split != HeadId(s.repo)
      && Reach(s.repo.commits, HeadId(s.repo), p.split)
      && IsParent(s.repo.commits, p.split, s.repo.commits[p.tip])
  {
    var r := s.repo;
    if r.head == branch then Refuse(MergeWithSelf)
    else if r.staging != map[] || r.removals != [] then Refuse(UncommittedChanges)
    else if branch !in r.branches then Refuse(BranchDoesNotExist)
    else
      var tipId := r.branches[branch];
      var tip := r.commits[tipId];
      var head := GetHead(r);
      match FindSplit(r.commits, HeadId(r), tip)
      case None =>
        if tipId == HeadId(r) || IsParent(r.commits, tipId, head) then Refuse(GivenIsAncestor)
        else Refuse(NoSplitPoint)
      case Some(splitId) =>
        if !UntrackedClear(head.files, tip.files, s.wd) then Refuse(UntrackedInTheWay)
        else if IsParent(r.commits, tipId, head) then Refuse(GivenIsAncestor)
        else if CommitId(h, r.commits[splitId]) == CommitId(h, head) then FastForward(tipId)
        else Reconcile(splitId, tipId)
  }

  /** The message of the merge commit. */
  function MergeMessage(branch: string, headBranchName: string): string {
    "Merged " + branch + " into " + headBranchName + "."
  }

  /**
    The state the reconciliation leaves for the final `commit`: every name's
    action applied to the disk and the staging area, the removed names listed
    for removal, the tip pending as second parent, and nothing else changed.
   */
  ghost function Reconciled(h: Hasher, s: State, split: Digest, tip: Digest): (st: State)
    requires Wf(h, s.repo) && split in s.repo.commits && tip in s.repo.commits
    ensures Wf(h, st.repo)
    ensures var head := GetHead(s.repo);
      var S := s.repo.commits[split].files;
      var B := s.repo.commits[tip].files;
      && st.wd == MergedWd(S, head.files, B, s.wd)
      && st.repo.staging == MergedStaging(h, head, S, B)
      && (forall x :: x in st.repo.removals <==> x in RemovedNames(S, head.files, B))
      && st.repo == s.repo.(staging := st.repo.staging, removals := st.repo.removals, mergeParent := Some(tip), isMerge := true)
  {
    var r := s.repo;
    var head := GetHead(r);
    var S := r.commits[split].files;
    var B := r.commits[tip].files;
    State(r.(staging := MergedStaging(h, head, S, B),
             removals := Enumerate(RemovedNames(S, head.files, B)),
             mergeParent := Some(CommitId(h, r.commits[tip])),
             isMerge := true),
          MergedWd(S, head.files, B, s.wd))
  }

  /**
    `merge(branch)` with the fast-forward kept: the current branch moves to
    the tip. A reconciled merge ends in `commit`, which can still refuse when
    the merge staged and removed nothing.
   */
  ghost function Merge(h: Hasher, now: string, s: State, branch: string): (o: Outcome)
    requires Wf(h, s.repo)
    ensures PlanMerge(h, s, branch).Refuse? ==> o == Exit(PlanMerge(h, s, branch).err, s.wd)
    ensures PlanMerge(h, s, branch).FastForward? ==> o == ResetTo(h, s, PlanMerge(h, s, branch).tip)
  {
    var r := s.repo;
    match PlanMerge(h, s, branch)
    case Refuse(e) => Exit(e, s.wd)
    case FastForward(tip) => ResetTo(h, s, tip)
    case Reconcile(split, tip) =>
      var st := Reconciled(h, s, split, tip);
      CommitChanges(h, now, st, MergeMessage(branch, GetHead(r).branchName))
  }

  /** A fast-forward merge moves the current branch to the tip and checks the tip out. */
  lemma FastForwardMovesBranch(h: Hasher, now: string, s: State, branch: string)
    requires Wf(h, s.repo)
    requires PlanMerge(h, s, branch).FastForward?
    ensures var o := Merge(h, now, s, branch);
      && o.Ok?
      && o.st.repo.commits == s.repo.commits
      && o.st.repo.head == s.repo.head
      && o.st.repo.branches == s.repo.branches[s.repo.head := s.repo.branches[branch]]
      && GetHead(o.st.repo) == s.repo.commits[s.repo.branches[branch]]
      && o.st.repo.staging == map[]
  {
  }

  /** `commit` in the middle of a merge records the pending second parent. */
  lemma MergeCommitRecordsBothParents(h: Hasher, now: string, st: State, msg: string)
    requires Wf(h, st.repo) && st.repo.isMerge
    ensures var o := CommitChanges(h, now, st, msg);
      o.Ok? ==>
        var id := o.st.repo.branches[st.repo.head];
        var c := o.st.repo.commits[id];
        && o.st.wd == st.wd
        && o.st.repo.head == st.repo.head
        && c.parent == Some(HeadId(st.repo))
        && c.parent2 == st.repo.mergeParent
        && c.fromMerge
        && c.message == msg
        && c.files == Snapshot(GetHead(st.repo).files, st.repo.staging, st.repo.removals)
        && o.st.repo.staging == map[] && o.st.repo.removals == [] && !o.st.repo.isMerge
  {
    var o := CommitChanges(h, now, st, msg);
    if o.Ok? {
      var c := NextCommit(h, now, st.repo, msg);
      assert o.st.repo.commits[o.st.repo.branches[st.repo.head]] == c;
    }
  }

  /**
    A reconciled merge that commits records HEAD as first parent and the
    branch tip as second parent, under the message "Merged <branch> into
    <name>.", with the merged files as its snapshot; when the merge changed
    nothing the final `commit` refuses.
   */
  lemma MergeCommitFacts(h: Hasher, now: string, s: State, branch: string)
    requires Wf(h, s.repo)
    ensures var p := PlanMerge(h, s, branch);
      p.Reconcile? ==>
      var st := Reconciled(h, s, p.split, p.tip);
      var o := Merge(h, now, s, branch);
      && (o.Exit? ==> o == Exit(NoChanges, st.wd))
      && (o.Exit? <==> st.repo.staging == map[] && st.repo.removals == [])
      && (o.Ok? ==>
          var c := o.st.repo.commits[o.st.repo.branches[s.repo.head]];
          && o.st.wd == st.wd
          && o.st.repo.head == s.repo.head
          && c.parent == Some(HeadId(s.repo))
          && c.parent2 == Some(s.repo.branches[branch])
          && c.fromMerge
          && c.message == MergeMessage(branch, GetHead(s.repo).branchName)
          && c.files == Snapshot(GetHead(s.repo).files, st.repo.staging, st.repo.removals)
          && o.st.repo.staging == map[] && o.st.repo.removals == [] && !o.st.repo.isMerge)
  {
    var p := PlanMerge(h, s, branch);
    if !p.Reconcile? {
      return;
    }
    var st := Reconciled(h, s, p.split, p.tip);
    var msg := MergeMessage(branch, GetHead(s.repo).branchName);
    assert Merge(h, now, s, branch) == CommitChanges(h, now, st, msg);
    assert HeadId(st.repo) == HeadId(s.repo) && GetHead(st.repo) == GetHead(s.repo);
    assert st.repo.mergeParent == Some(s.repo.branches[branch]);
    MergeCommitRecordsBothParents(h, now, st, msg);
  }

  /** HEAD's blob for `f`, if any, shares its sha with no blob of `f` holding other content. */
  ghost predicate NoShaClash(h: Hasher, head: Commit, f: string) {
    f in head.files ==> forall v | MakeBlob(h, f, v).sha == head.files[f].sha :: v == head.files[f].content
  }

  /**
    Name by name, HEAD's files updated by the merge's staging and removals
    hold the three-way resolution, and on every name the merge acted on the
    merged working directory agrees with them.
   */
  lemma SnapshotResolves(h: Hasher, head: Commit, split: map<string, Blob>, branch: map<string, Blob>,
                         removals: seq<string>, wd: WorkDir, f: string)
    requires NoShaClash(h, head, f)
    requires forall x :: x in removals <==> x in RemovedNames(split, head.files, branch)
    ensures var files := Snapshot(head.files, MergedStaging(h, head, split, branch), removals);
      var wd' := MergedWd(split, head.files, branch, wd);
      var res := ThreeWay(Content(Lookup(split, f)), Content(Lookup(head.files, f)), Content(Lookup(branch, f)));
      && (res.Take? && res.content.Some? ==> f in files && files[f].content == res.content.value)
      && (res.Take? && res.content.None? ==> f !in files)
      && (res.Clash? ==> f in files && files[f].content == ConflictText(res.head, res.branch))
      && (res != Take(Content(Lookup(head.files, f))) ==>
            (f in wd' <==> f in files) && (f in files ==> wd'[f] == files[f].content))
  {
    ClassifyIsThreeWay(Lookup(split, f), Lookup(head.files, f), Lookup(branch, f));
    MergedStagingRules(h, head, split, branch, f);
    MergedWdRules(split, head.files, branch, wd, f);
    SnapshotRules(head.files, MergedStaging(h, head, split, branch), removals);
  }

  /**
    The merge commit resolves every name by the three-way rule: the content
    both sides agree on or the one side changed since the split, no file
    where that resolution is an absence, and the conflict text on a clash.
    Every name the merge acted on is on disk exactly as the commit holds it.
    This needs HEAD's blob for the name not to share a sha with a blob of
    other content, because `add` and `update` compare blobs by sha alone.
   */
  lemma MergeResolvesEachName(h: Hasher, now: string, s: State, branch: string, f: string)
    requires Wf(h, s.repo)
    requires NoShaClash(h, GetHead(s.repo), f)
    ensures var p := PlanMerge(h, s, branch);
      var o := Merge(h, now, s, branch);
      p.Reconcile? && o.Ok? ==>
        var S := s.repo.commits[p.split].files;
        var H := GetHead(s.repo).files;
        var B := s.repo.commits[p.tip].files;
        var c := o.st.repo.commits[o.st.repo.branches[s.repo.head]];
        var res := ThreeWay(Content(Lookup(S, f)), Content(Lookup(H, f)), Content(Lookup(B, f)));
        && (res.Take? && res.content.Some? ==> f in c.files && c.files[f].content == res.content.value)
        && (res.Take? && res.content.None? ==> f !in c.files)
        && (res.Clash? ==> f in c.files && c.files[f].content == ConflictText(res.head, res.branch))
        && (res != Take(Content(Lookup(H, f))) ==>
              (f in o.st.wd <==> f in c.files) && (f in c.files ==> o.st.wd[f] == c.files[f].content))
  {
    var p := PlanMerge(h, s, branch);
    if p.Reconcile? {
      var head := GetHead(s.repo);
      var st := Reconciled(h, s, p.split, p.tip);
      MergeCommitFacts(h, now, s, branch);
      SnapshotResolves(h, head, s.repo.commits[p.split].files, s.repo.commits[p.tip].files, st.repo.removals, s.wd, f);
    }
  }
}

=== FILE: objects.dfy ===
/**
  The object model of gitlet: blobs (one file's content at staging time) and
  commits (immutable snapshots with zero, one or two parent ids).

  SHA-1 and the HashMap iteration order of a commit's file names are not
  modelled; both are supplied by a `Hasher` that every operation receives.
 */
module Objects {
  import opened Wrappers

  /** A SHA-1 digest in hexadecimal: always 40 characters long. */
  type Digest = s: string | |s| == 40 witness "0000000000000000000000000000000000000000"

  /**
    `sha1` is `Utils.sha1` over its string arguments; `joinNames` is the
    concatenation of a commit's file names in HashMap order. Taking it as a
    function of the name set alone is an assumption of this model: a Java
    HashMap's order also depends on its bucket count, which depends on the
    map's history.
   */
  datatype Hasher = Hasher(sha1: seq<string> -> Digest, joinNames: set<string> -> string)

  /** A staged or committed file: its name, its content and the SHA-1 of both. */
  datatype Blob = Blob(name: string, content: string, sha: Digest)

  /** `new Blobs(name)` once the file's content has been read from disk. */
  function MakeBlob(h: Hasher, name: string, content: string): (b: Blob)
    ensures b.name == name && b.content == content
  {
    Blob(name, content, h.sha1([name + content]))
  }

  /**
    A commit. `gen` is not in the source: it is the commit's generation
    (strictly above both parents'), kept so that walks over history terminate.
   */
  datatype Commit = Commit(
    time: string,
    message: string,
    parent: Option<Digest>,
    parent2: Option<Digest>,
    fromMerge: bool,
    branchName: string,
    files: map<string, Blob>,
    gen: nat)

  const RootTime: string := "Wed Dec 31 16:00:00 1969 -0800"
  const InitialMessage: string := "initial commit"
  const DefaultBranch: string := "master"

  /** `Commit.init()`: the root commit, with no parent and no files. */
  function InitCommit(): Commit {
    Commit(RootTime, InitialMessage, None, None, false, DefaultBranch, map[], 0)
  }

  /** Java's string concatenation of a possibly null id. */
  function IdText(id: Option<Digest>): string {
    match id
    case None => "null"
    case Some(d) => d
  }

  /**
    `getSha()`: the hash of timestamp, message, parent id(s) and the tracked
    file names; blob contents do not take part.
   */
  function CommitId(h: Hasher, c: Commit): Digest {
    var names := h.joinNames(c.files.Keys);
    match c.parent
    case None => h.sha1([c.time, c.message, names])
    case Some(p) =>
      var parents := if c.fromMerge then p + IdText(c.parent2) else p;
      h.sha1([c.time, c.message, parents, names])
  }

  /** The id is a function of the metadata and the key set of the file map. */
  lemma IdDeterminedByMetadata(h: Hasher, c: Commit, d: Commit)
    requires c.time == d.time && c.message == d.message && c.parent == d.parent
    requires c.fromMerge == d.fromMerge && (c.fromMerge ==> c.parent2 == d.parent2)
    requires c.files.Keys == d.files.Keys
    ensures CommitId(h, c) == CommitId(h, d)
  {
  }

  /** Replacing blob contents under the same names leaves the id unchanged. */
  lemma IdIgnoresContents(h: Hasher, c: Commit, files: map<string, Blob>)
    requires files.Keys == c.files.Keys
    ensures CommitId(h, c.(files := files)) == CommitId(h, c)
  {
    IdDeterminedByMetadata(h, c, c.(files := files));
  }

  /** The root's id hashes three components; a child's hashes four, the third being its parent id(s). */
  lemma IdComponents(h: Hasher, c: Commit)
    ensures c.parent.None? ==> CommitId(h, c) == h.sha1([c.time, c.message, h.joinNames(c.files.Keys)])
    ensures c.parent.Some? && !c.fromMerge ==>
              CommitId(h, c) == h.sha1([c.time, c.message, c.parent.value, h.joinNames(c.files.Keys)])
    ensures c.parent.Some? && c.fromMerge && c.parent2.Some? ==>
              CommitId(h, c) == h.sha1([c.time, c.message, c.parent.value + c.parent2.value, h.joinNames(c.files.Keys)])
  {
  }

  /** `getBlobs(f)`: the blob tracked under `f`, or None. */
  function GetBlob(c: Commit, f: string): (r: Option<Blob>)
    ensures r.Some? <==> Tracking(c, f)
    ensures r.Some? ==> r.value == c.files[f]
  {
    if f in c.files then Some(c.files[f]) else None
  }

  /** `tracking(f)`. */
  predicate Tracking(c: Commit, f: string) {
    f in c.files
  }

  /** `getAllFilesList()`, as a set: the order of the Java list is HashMap order. */
  function FileNames(c: Commit): (names: set<string>)
    ensures forall f :: f in names <==> Tracking(c, f)
  {
    c.files.Keys
  }

  /**
    The staged additions of `update`: a staged blob replaces the parent's
    unless both have the same sha, in which case the parent's blob stays.
   */
  function Overlay(files: map<string, Blob>, staging: map<string, Blob>): (r: map<string, Blob>)
    ensures r.Keys == files.Keys + staging.Keys
    ensures forall f | f in files && f !in staging :: r[f] == files[f]
  {
    map f | f in files.Keys + staging.Keys ::
      if f in staging && !(f in files && files[f].sha == staging[f].sha) then staging[f] else files[f]
  }

  /** The removal loop of `update`, draining the list from its front. */
  function ApplyRemovals(files: map<string, Blob>, removals: seq<string>): (r: map<string, Blob>)
    ensures r.Keys == files.Keys - (set f | f in removals)
    ensures forall f | f in r :: r[f] == files[f]
    decreases |removals|
  {
    if removals == [] then files
    else ApplyRemovals(files - {removals[0]}, removals[1..])
  }

  /** `copyAllFiles` followed by `update`: the new commit's complete file map. */
  function Snapshot(files: map<string, Blob>, staging: map<string, Blob>, removals: seq<string>): map<string, Blob> {
    ApplyRemovals(Overlay(files, staging), removals)
  }

  /**
    What `update` promises name by name: removed names are untracked even when
    staged; a staged name takes the staged blob unless its sha equals the
    parent's; any other name keeps exactly the parent's entry.
   */
  lemma SnapshotRules(files: map<string, Blob>, staging: map<string, Blob>, removals: seq<string>)
    ensures var r := Snapshot(files, staging, removals);
      && (forall f | f in removals :: f !in r)
      && (forall f | f in staging && f !in removals ::
            f in r && r[f] == (if f in files && files[f].sha == staging[f].sha then files[f] else staging[f]))
      && (forall f | f in files && f !in staging && f !in removals :: f in r && r[f] == files[f])
      && (forall f | f in r :: (f in files || f in staging) && f !in removals)
  {
    var o := Overlay(files, staging);
    assert forall f | f in staging :: o[f] == (if f in files && files[f].sha == staging[f].sha then files[f] else staging[f]);
  }

  /**
    The non-root constructor: the first parent id is the parent's id, a
    second parent id is recorded only for a merge, and the files are the
    parent's snapshot updated by the staging map and removal list.
   */
  function Child(h: Hasher, now: string, message: string, parent: Commit, second: Option<Commit>,
                 staging: map<string, Blob>, branchName: string, removals: seq<string>): (c: Commit)
    ensures c.parent == Some(CommitId(h, parent))
    ensures c.fromMerge <==> second.Some?
    ensures second.Some? ==> c.parent2 == Some(CommitId(h, second.value))
    ensures second.None? ==> c.parent2.None?
    ensures c.gen > parent.gen && (second.Some? ==> c.gen > second.value.gen)
    ensures c.time == now && c.message == message && c.branchName == branchName
    ensures c.files == Snapshot(parent.files, staging, removals)
  {
    var gen := if second.Some? && second.value.gen > parent.gen then second.value.gen + 1 else parent.gen + 1;
    var p2 := if second.Some? then Some(CommitId(h, second.value)) else None;
    Commit(now, message, Some(CommitId(h, parent)), p2, second.Some?, branchName,
           Snapshot(parent.files, staging, removals), gen)
  }
}

=== FILE: repo.dfy ===
/**
  The repository state machine of gitlet's `Repo` class: the commit store,
  branches, HEAD, the staging map and the removal list, together with the
  working directory the commands read and write.

  Every `exit0()` ends the process before the repository object is saved, so
  an operation either yields a new state (`Ok`) or leaves the saved
  repository as it was (`Exit`), carrying the working directory as it stands
  on disk at the moment of the exit.
 */
module Repository {
  import opened Wrappers
  import opened Objects
  import opened History

  /** The working directory: file name to content. */
  type WorkDir = map<string, string>

  /**
    `_allCommit`, `_allBranch`, `_head`, `_allStaging`, `_allUntrack` (the
    list of names to remove at the next commit), `_parentId2` and `_isMerge`.
   */
  datatype Repo = Repo(
    commits: Store,
    branches: map<string, Digest>,
    head: string,
    staging: map<string, Blob>,
    removals: seq<string>,
    mergeParent: Option<Digest>,
    isMerge: bool)

  datatype State = State(repo: Repo, wd: WorkDir)

  /** The reasons a command stops, one per message the source prints before exiting. */
  datatype Error =
    | FileDoesNotExist
    | EmptyMessage
    | NoChanges
    | NoReasonToRemove
    | BranchExists
    | FileNotInCommit
    | NoCommitWithId
    | NoSuchBranch
    | AlreadyOnBranch
    | BranchDoesNotExist
    | CannotRemoveCurrent
    | UntrackedInTheWay
    | MergeWithSelf
    | UncommittedChanges
    | NoSplitPoint
    | GivenIsAncestor
    | FastForwarded

  datatype Outcome = Ok(st: State) | Exit(err: Error, wd: WorkDir)

  /** Branch pointers and a pending second parent resolve in a well-formed store. */
  predicate Linked(r: Repo) {
    && StoreOk(r.commits)
    && r.head in r.branches
    && (forall b | b in r.branches :: r.branches[b] in r.commits)
    && (r.isMerge ==> r.mergeParent.Some? && r.mergeParent.value in r.commits)
  }

  /** Every stored commit sits under its own id. */
  predicate IdsConsistent(h: Hasher, store: Store) {
    forall k | k in store :: CommitId(h, store[k]) == k
  }

  /** The repository invariant. */
  predicate Wf(h: Hasher, r: Repo) {
    Linked(r) && IdsConsistent(h, r.commits)
  }

  /** The id the HEAD branch points at. */
  function HeadId(r: Repo): (id: Digest)
    requires Linked(r)
    ensures id in r.commits
  {
    r.branches[r.head]
  }

  /** `getHead()`. */
  function GetHead(r: Repo): (c: Commit)
    requires Linked(r)
    ensures ParentsBelow(r.commits, c)
  {
    r.commits[HeadId(r)]
  }

  /** The state `new Repo()` builds: the root commit alone, on branch "master". */
  function Init(h: Hasher): Repo {
    var root := InitCommit();
    var id := CommitId(h, root);
    Repo(map[id := root], map[DefaultBranch := id], DefaultBranch, map[], [], None, false)
  }

  /**
    The initial repository is well formed; HEAD is "master" at a root commit
    with no parents, no files, the epoch timestamp and the message
    "initial commit"; nothing is staged.
   */
  lemma InitFacts(h: Hasher)
    ensures Wf(h, Init(h))
    ensures var r := Init(h);
      && r.head == "master" && r.branches.Keys == {"master"} && |r.commits| == 1
      && GetHead(r).parent.None? && GetHead(r).parent2.None? && !GetHead(r).fromMerge
      && GetHead(r).files == map[]
      && GetHead(r).time == "Wed Dec 31 16:00:00 1969 -0800"
      && GetHead(r).message == "initial commit"
      && GetHead(r).branchName == "master"
      && r.staging == map[] && r.removals == [] && !r.isMerge
  {
    var r := Init(h);
    assert r.commits.Keys == {CommitId(h, InitCommit())};
  }

  // ---------------------------------------------------------------- staging

  /** Every occurrence of `f` deleted from `s`, the rest in order. */
  function RemoveAll(s: seq<string>, f: string): (r: seq<string>)
    ensures forall x :: x in r <==> x in s && x != f
    ensures |r| <= |s|
  {
    if s == [] then []
    else if s[0] == f then RemoveAll(s[1..], f)
    else [s[0]] + RemoveAll(s[1..], f)
  }

  /**
    What `add` does with `content` under the name `f`: stage its blob, unless
    HEAD tracks `f` with a blob of the same sha (None: un-stage `f`).
   */
  function AddDecision(h: Hasher, head: Commit, f: string, content: string): (d: Option<Blob>)
    ensures d.None? <==> f in head.files && head.files[f].sha == MakeBlob(h, f, content).sha
    ensures d.Some? ==> d.value == MakeBlob(h, f, content)
  {
    var b := MakeBlob(h, f, content);
    match GetBlob(head, f)
    case None => Some(b)
    case Some(prev) => if prev.sha == b.sha then None else Some(b)
  }

  /** The staging map after `add` decided about `f`; no other entry changes. */
  function StageFile(h: Hasher, head: Commit, staging: map<string, Blob>, f: string, content: string): (s: map<string, Blob>)
    ensures s.Keys - {f} == staging.Keys - {f}
    ensures forall g | g in staging && g != f :: g in s && s[g] == staging[g]
    ensures f in s <==> !(f in head.files && head.files[f].sha == MakeBlob(h, f, content).sha)
    ensures f in s ==> s[f] == MakeBlob(h, f, content)
  {
    match AddDecision(h, head, f, content)
    case None => staging - {f}
    case Some(b) => staging[f := b]
  }

  /** `add(f)`. */
  function Add(h: Hasher, s: State, f: string): (o: Outcome)
    requires Linked(s.repo)
    ensures o.Exit? <==> f !in s.wd
    ensures o.Exit? ==> o == Exit(FileDoesNotExist, s.wd)
    ensures o.Ok? ==> o.st.wd == s.wd
    ensures o.Ok? ==> o.st.repo == s.repo.(staging := o.st.repo.staging, removals := o.st.repo.removals)
    ensures o.Ok? ==> o.st.repo.staging == StageFile(h, GetHead(s.repo), s.repo.staging, f, s.wd[f])
    ensures o.Ok? ==> forall x :: x in o.st.repo.removals <==> x in s.repo.removals && x != f
  {
    if f !in s.wd then Exit(FileDoesNotExist, s.wd)
    else
      var r := s.repo;
      var staging := StageFile(h, GetHead(r), r.staging, f, s.wd[f]);
      Ok(s.(repo := r.(staging := staging, removals := RemoveAll(r.removals, f))))
  }

  /** Adding a file twice in a row is the same as adding it once. */
  lemma AddIdempotent(h: Hasher, s: State, f: string)
    requires Linked(s.repo) && f in s.wd
    ensures Add(h, Add(h, s, f).st, f) == Add(h, s, f)
  {
    var s1 := Add(h, s, f).st;
    var s2 := Add(h, s1, f).st;
    var once := s1.repo.staging;
    var twice := s2.repo.staging;
    assert twice.Keys == once.Keys;
    assert twice == once;
    RemoveAllIdempotent(s.repo.removals, f);
  }

  lemma {:induction false} RemoveAllIdempotent(s: seq<string>, f: string)
    ensures RemoveAll(RemoveAll(s, f), f) == RemoveAll(s, f)
  {
    if s != [] {
      RemoveAllIdempotent(s[1..], f);
      if s[0] != f {
        assert ([s[0]] + RemoveAll(s[1..], f))[1..] == RemoveAll(s[1..], f);
      }
    }
  }

  /** When HEAD already tracks the working file's content, `add` leaves it unstaged. */
  lemma AddUnchangedUnstages(h: Hasher, s: State, f: string)
    requires Linked(s.repo) && f in s.wd
    requires f in GetHead(s.repo).files && GetHead(s.repo).files[f] == MakeBlob(h, f, s.wd[f])
    ensures Add(h, s, f).Ok? && f !in Add(h, s, f).st.repo.staging
  {
  }

  // ---------------------------------------------------------------- commit

  /** The commit `commit(message)` builds from the current state. */
  function NextCommit(h: Hasher, now: string, r: Repo, message: string): Commit
    requires Linked(r)
  {
    var second := if r.isMerge then Some(r.commits[r.mergeParent.value]) else None;
    Child(h, now, message, GetHead(r), second, r.staging, r.head, r.removals)
  }

  /** `commit(message)`; `now` is the formatted clock reading. */
  function CommitChanges(h: Hasher, now: string, s: State, message: string): (o: Outcome)
    requires Wf(h, s.repo)
    ensures message == "" ==> o == Exit(EmptyMessage, s.wd)
    ensures message != "" && s.repo.staging == map[] && s.repo.removals == [] ==> o == Exit(NoChanges, s.wd)
    ensures o.Ok? <==> message != "" && (s.repo.staging != map[] || s.repo.removals != [])
    ensures o.Ok? ==>
      var r := s.repo;
      var r' := o.st.repo;
      var c := NextCommit(h, now, r, message);
      var id := CommitId(h, c);
      && o.st.wd == s.wd
      && r'.commits == r.commits[id := c]
      && r'.head == r.head
      && r'.branches == r.branches[r.head := id]
      && r'.staging == map[] && r'.removals == [] && !r'.isMerge
      && r'.mergeParent == r.mergeParent
      && c.parent == Some(HeadId(r))
      && (r.isMerge ==> c.parent2 == r.mergeParent)
      && (!r.isMerge ==> c.parent2.None?)
      && c.message == message && c.time == now && c.branchName == r.head
      && c.files == Snapshot(GetHead(r).files, r.staging, r.removals)
  {
    var r := s.repo;
    if message == "" then Exit(EmptyMessage, s.wd)
    else if r.staging == map[] && r.removals == [] then Exit(NoChanges, s.wd)
    else
      var c := NextCommit(h, now, r, message);
      var id := CommitId(h, c);
      Ok(s.(repo := r.(commits := r.commits[id := c],
                       branches := r.branches[r.head := id],
                       staging := map[],
                       removals := [],
                       isMerge := false)))
  }

  /** A commit whose id is new to the store keeps the repository well formed. */
  lemma CommitPreservesWf(h: Hasher, now: string, s: State, message: string)
    requires Wf(h, s.repo)
    requires CommitId(h, NextCommit(h, now, s.repo, message)) !in s.repo.commits
    ensures CommitChanges(h, now, s, message).Ok? ==> Wf(h, CommitChanges(h, now, s, message).st.repo)
  {
    var r := s.repo;
    var c := NextCommit(h, now, r, message);
    var id := CommitId(h, c);
    var store := r.commits[id := c];
    assert ParentsBelow(store, c);
    forall k | k in store ensures ParentsBelow(store, store[k]) {
      if k != id {
        assert ParentsBelow(r.commits, r.commits[k]);
      }
    }
  }

  // ---------------------------------------------------------------- rm

  /** `rm(f)`. */
  function Rm(s: State, f: string): (o: Outcome)
    requires Linked(s.repo)
    ensures o.Exit? <==> f !in s.repo.staging && !Tracking(GetHead(s.repo), f)
    ensures o.Exit? ==> o == Exit(NoReasonToRemove, s.wd)
    ensures o.Ok? ==> o.st.repo.staging == s.repo.staging - {f}
    ensures o.Ok? && Tracking(GetHead(s.repo), f) ==>
              o.st.repo.removals == s.repo.removals + [f] && o.st.wd == s.wd - {f}
    ensures o.Ok? && !Tracking(GetHead(s.repo), f) ==>
              o.st.repo.removals == s.repo.removals && o.st.wd == s.wd
    ensures o.Ok? ==> o.st.repo == s.repo.(staging := o.st.repo.staging, removals := o.st.repo.removals)
  {
    var r := s.repo;
    var tracked := Tracking(GetHead(r), f);
    if f !in r.staging && !tracked then Exit(NoReasonToRemove, s.wd)
    else
      var wd := if tracked then s.wd - {f} else s.wd;
      var removals := if tracked then r.removals + [f] else r.removals;
      Ok(State(r.(staging := r.staging - {f}, removals := removals), wd))
  }

  /** Staging and un-staging touch neither history nor branches, so they keep the repository well formed. */
  lemma AddRmPreserveWf(h: Hasher, s: State, f: string)
    requires Wf(h, s.repo)
    ensures Add(h, s, f).Ok? ==> Wf(h, Add(h, s, f).st.repo)
    ensures Rm(s, f).Ok? ==> Wf(h, Rm(s, f).st.repo)
  {
  }

  // ---------------------------------------------------------------- branches

  /** `branch(name)`. */
  function Branch(h: Hasher, s: State, name: string): (o: Outcome)
    requires Wf(h, s.repo)
    ensures o.Exit? <==> name in s.repo.branches
    ensures o.Exit? ==> o == Exit(BranchExists, s.wd)
    ensures o.Ok? ==> o.st == s.(repo := s.repo.(branches := s.repo.branches[name := HeadId(s.repo)]))
  {
    if name in s.repo.branches then Exit(BranchExists, s.wd)
    else Ok(s.(repo := s.repo.(branches := s.repo.branches[name := CommitId(h, GetHead(s.repo))])))
  }

  /** `rmBranch(name)`. */
  function RmBranch(s: State, name: string): (o: Outcome)
    requires Linked(s.repo)
    ensures name !in s.repo.branches ==> o == Exit(BranchDoesNotExist, s.wd)
    ensures name in s.repo.branches && name == s.repo.head ==> o == Exit(CannotRemoveCurrent, s.wd)
    ensures o.Ok? <==> name in s.repo.branches && name != s.repo.head
    ensures o.Ok? ==> o.st.wd == s.wd && o.st.repo == s.repo.(branches := o.st.repo.branches)
    ensures o.Ok? ==> o.st.repo.branches.Keys == s.repo.branches.Keys - {name}
    ensures o.Ok? ==> forall b | b in o.st.repo.branches :: o.st.repo.branches[b] == s.repo.branches[b]
  {
    if name !in s.repo.branches then Exit(BranchDoesNotExist, s.wd)
    else if name == s.repo.head then Exit(CannotRemoveCurrent, s.wd)
    else Ok(s.(repo := s.repo.(branches := s.repo.branches - {name})))
  }

  lemma BranchPreservesWf(h: Hasher, s: State, name: string)
    requires Wf(h, s.repo)
    ensures Branch(h, s, name).Ok? ==> Wf(h, Branch(h, s, name).st.repo)
  {
  }

  lemma RmBranchPreservesWf(h: Hasher, s: State, name: string)
    requires Wf(h, s.repo)
    ensures RmBranch(s, name).Ok? ==> Wf(h, RmBranch(s, name).st.repo)
  {
  }

  // ---------------------------------------------------------------- id lookup

  /** Java's `String.contains`: `q` occurs in `s` at some position. */
  predicate Contains(s: string, q: string) {
    exists i | 0 <= i <= |s| - |q| :: OccursAt(s, q, i)
  }

  predicate OccursAt(s: string, q: string, i: nat)
    requires i + |q| <= |s|
  {
    s[i..i + |q|] == q
  }

  lemma ContainsSelf(q: string)
    ensures Contains(q, q)
  {
    assert OccursAt(q, q, 0);
  }

  /** Between strings of one length, containment is equality. */
  lemma ContainsSameLength(x: string, q: string)
    requires |x| == |q| && Contains(x, q)
    ensures x == q
  {
    var i :| 0 <= i <= |x| - |q| && OccursAt(x, q, i);
    assert x[0..|x|] == x;
  }

  /**
    `getCommitFromId(q)`: the first name of the commit directory listing that
    contains `q`, if that name is a stored commit; None otherwise.
   */
  function LookupId(store: Store, listing: seq<string>, q: string): (r: Option<Digest>)
    ensures r.Some? ==> r.value in store && r.value in listing && Contains(r.value, q)
    ensures r.Some? ==> exists i | 0 <= i < |listing| ::
              listing[i] == r.value && forall j | 0 <= j < i :: !Contains(listing[j], q)
    ensures (forall x | x in listing :: x in store) ==> (r.None? <==> forall x | x in listing :: !Contains(x, q))
  {
    if listing == [] then None
    else if Contains(listing[0], q) then
      (if listing[0] in store then var d: Digest := listing[0]; Some(d) else None)
    else
      var r := LookupId(store, listing[1..], q);
      assert r.Some? ==> exists i | 0 <= i < |listing| ::
               listing[i] == r.value && forall j | 0 <= j < i :: !Contains(listing[j], q) by {
        if r.Some? {
          var i :| 0 <= i < |listing[1..]| && listing[1..][i] == r.value
                   && forall j | 0 <= j < i :: !Contains(listing[1..][j], q);
          assert listing[i + 1] == r.value;
        }
      }
      r
  }

  /** Any infix of an id finds it, not only a prefix. */
  lemma LookupMatchesInfix(store: Store, k: Digest, i: nat, j: nat)
    requires k in store && i <= j <= |k|
    ensures LookupId(store, [k], k[i..j]) == Some(k)
  {
    assert OccursAt(k, k[i..j], i);
  }

  /** With a listing of stored ids, a full id finds exactly its own commit. */
  lemma {:induction false} LookupExact(store: Store, listing: seq<string>, id: Digest)
    requires forall x | x in listing :: x in store
    requires id in listing
    ensures LookupId(store, listing, id) == Some(id)
  {
    var x := listing[0];
    assert x in store;
    var xd: Digest := x;
    ContainsSelf(id);
    if Contains(x, id) {
      ContainsSameLength(x, id);
    } else {
      LookupExact(store, listing[1..], id);
    }
  }

  // ---------------------------------------------------------------- checkout

  /** `checkout1(f, com)`: write the committed content of `f` and un-stage it. */
  function Checkout1(s: State, f: string, com: Commit): (o: Outcome)
    ensures o.Exit? <==> !Tracking(com, f)
    ensures o.Exit? ==> o == Exit(FileNotInCommit, s.wd)
    ensures o.Ok? ==> o.st.wd == s.wd[f := com.files[f].content]
    ensures o.Ok? ==> o.st.repo == s.repo.(staging := s.repo.staging - {f})
  {
    if f !in com.files then Exit(FileNotInCommit, s.wd)
    else Ok(State(s.repo.(staging := s.repo.staging - {f}), s.wd[f := com.files[f].content]))
  }

  /** `checkout2(q, f)`: `checkout1` from the commit the listing resolves `q` to. */
  function Checkout2(s: State, listing: seq<string>, q: string, f: string): (o: Outcome)
    requires Linked(s.repo)
    ensures LookupId(s.repo.commits, listing, q).None? ==> o == Exit(NoCommitWithId, s.wd)
    ensures LookupId(s.repo.commits, listing, q).Some? ==>
              o == Checkout1(s, f, s.repo.commits[LookupId(s.repo.commits, listing, q).value])
  {
    match LookupId(s.repo.commits, listing, q)
    case None => Exit(NoCommitWithId, s.wd)
    case Some(id) => Checkout1(s, f, s.repo.commits[id])
  }

  /**
    `checkUntracked`: no file that `target` tracks and `current` does not sits
    in the working directory with different content.
   */
  predicate UntrackedClear(current: map<string, Blob>, target: map<string, Blob>, wd: WorkDir) {
    forall f | f in target && f !in current && f in wd :: wd[f] == target[f].content
  }

  /** The files of `checkOutCommit`: write every target file, delete the files only `current` tracks. */
  function SwapTree(current: map<string, Blob>, target: map<string, Blob>, wd: WorkDir): (wd': WorkDir)
    ensures forall f | f in target :: f in wd' && wd'[f] == target[f].content
    ensures forall f | f in current && f !in target :: f !in wd'
    ensures forall f | f in wd && f !in current && f !in target :: f in wd' && wd'[f] == wd[f]
    ensures forall f | f in wd' :: f in target || (f in wd && f !in current)
  {
    map f | f in target.Keys + (wd.Keys - current.Keys) :: if f in target then target[f].content else wd[f]
  }

  /**
    `checkUntracked` guards exactly the files HEAD does not track: the check
    passes precisely when swapping the tree leaves every such file on disk
    with its content.
   */
  lemma UntrackedClearProtects(current: map<string, Blob>, target: map<string, Blob>, wd: WorkDir)
    ensures UntrackedClear(current, target, wd) <==>
              forall f | f in wd && f !in current :: f in SwapTree(current, target, wd) && SwapTree(current, target, wd)[f] == wd[f]
  {
  }

  /** `checkOutCommit(com)`. */
  function CheckOutCommit(s: State, target: Commit): (o: Outcome)
    requires Linked(s.repo)
    ensures o.Exit? <==> !UntrackedClear(GetHead(s.repo).files, target.files, s.wd)
    ensures o.Exit? ==> o == Exit(UntrackedInTheWay, s.wd)
    ensures o.Ok? ==> o.st == State(s.repo.(staging := map[]), SwapTree(GetHead(s.repo).files, target.files, s.wd))
  {
    var current := GetHead(s.repo).files;
    if !UntrackedClear(current, target.files, s.wd) then Exit(UntrackedInTheWay, s.wd)
    else Ok(State(s.repo.(staging := map[]), SwapTree(current, target.files, s.wd)))
  }

  /** `checkout3(branch)`. */
  function Checkout3(h: Hasher, s: State, branch: string): (o: Outcome)
    requires Wf(h, s.repo)
    ensures branch !in s.repo.branches ==> o == Exit(NoSuchBranch, s.wd)
    ensures branch == s.repo.head ==> o == Exit(AlreadyOnBranch, s.wd)
    ensures branch in s.repo.branches && branch != s.repo.head ==>
      o == match CheckOutCommit(s, s.repo.commits[s.repo.branches[branch]])
           case Exit(e, wd) => Exit(e, wd)
           case Ok(st) => Ok(st.(repo := st.repo.(head := branch)))
  {
    var r := s.repo;
    if branch !in r.branches then Exit(NoSuchBranch, s.wd)
    else if CommitId(h, GetHead(r)) == r.branches[branch] && branch == r.head then Exit(AlreadyOnBranch, s.wd)
    else
      match CheckOutCommit(s, r.commits[r.branches[branch]])
      case Exit(e, wd) => Exit(e, wd)
      case Ok(st) => Ok(st.(repo := st.repo.(head := branch)))
  }

  /** `reset` once the commit is known: check it out, then repoint the current branch to it. */
  function ResetTo(h: Hasher, s: State, id: Digest): (o: Outcome)
    requires Linked(s.repo) && id in s.repo.commits
    ensures o.Exit? <==> !UntrackedClear(GetHead(s.repo).files, s.repo.commits[id].files, s.wd)
    ensures o.Exit? ==> o == Exit(UntrackedInTheWay, s.wd)
    ensures o.Ok? ==> o.st.wd == SwapTree(GetHead(s.repo).files, s.repo.commits[id].files, s.wd)
    ensures o.Ok? ==> o.st.repo == s.repo.(staging := map[], branches := s.repo.branches[s.repo.head := CommitId(h, s.repo.commits[id])])
  {
    match CheckOutCommit(s, s.repo.commits[id])
    case Exit(e, wd) => Exit(e, wd)
    case Ok(st) => Ok(st.(repo := st.repo.(branches := st.repo.branches[st.repo.head := CommitId(h, s.repo.commits[id])])))
  }

  /** `reset(q)`. */
  function Reset(h: Hasher, s: State, listing: seq<string>, q: string): (o: Outcome)
    requires Linked(s.repo)
    ensures LookupId(s.repo.commits, listing, q).None? ==> o == Exit(NoCommitWithId, s.wd)
    ensures LookupId(s.repo.commits, listing, q).Some? ==> o == ResetTo(h, s, LookupId(s.repo.commits, listing, q).value)
  {
    match LookupId(s.repo.commits, listing, q)
    case None => Exit(NoCommitWithId, s.wd)
    case Some(id) => ResetTo(h, s, id)
  }

  /**
    After a branch checkout the new HEAD is the branch's commit; the working
    directory holds every file it tracks with its committed content, no file
    only the old HEAD tracked, and nothing is staged.
   */
  lemma Checkout3RestoresSnapshot(h: Hasher, s: State, branch: string)
    requires Wf(h, s.repo)
    requires Checkout3(h, s, branch).Ok?
    ensures var st := Checkout3(h, s, branch).st;
      && Linked(st.repo)
      && st.repo.head == branch
      && st.repo.branches == s.repo.branches && st.repo.commits == s.repo.commits
      && GetHead(st.repo) == s.repo.commits[s.repo.branches[branch]]
      && (forall f | f in GetHead(st.repo).files :: f in st.wd && st.wd[f] == GetHead(st.repo).files[f].content)
      && (forall f | f in GetHead(s.repo).files && f !in GetHead(st.repo).files :: f !in st.wd)
      && st.repo.staging == map[]
  {
  }

  /**
    After a reset the current branch points at the chosen commit, HEAD's name
    is unchanged, and the working directory holds exactly its files.
   */
  lemma ResetRestoresSnapshot(h: Hasher, s: State, id: Digest)
    requires Wf(h, s.repo) && id in s.repo.commits
    requires ResetTo(h, s, id).Ok?
    ensures var st := ResetTo(h, s, id).st;
      && Wf(h, st.repo)
      && st.repo.head == s.repo.head
      && st.repo.branches == s.repo.branches[s.repo.head := id]
      && GetHead(st.repo) == s.repo.commits[id]
      && (forall f | f in GetHead(st.repo).files :: f in st.wd && st.wd[f] == GetHead(st.repo).files[f].content)
      && (forall f | f in GetHead(s.repo).files && f !in GetHead(st.repo).files :: f !in st.wd)
      && st.repo.staging == map[]
  {
  }

  /**
    The round trip of a file through history: `add f`, then `commit`, then
    any change on disk, then `checkout -- f` brings back the content that was
    added. The sha test of `add` must not mistake another content for it.
   */
  lemma AddCommitCheckout(h: Hasher, now: string, s: State, f: string, message: string, later: WorkDir)
    requires Wf(h, s.repo) && f in s.wd
    requires f in GetHead(s.repo).files && GetHead(s.repo).files[f].sha == MakeBlob(h, f, s.wd[f]).sha ==>
               GetHead(s.repo).files[f].content == s.wd[f]
    requires CommitId(h, NextCommit(h, now, Add(h, s, f).st.repo, message)) !in s.repo.commits
    ensures var o := CommitChanges(h, now, Add(h, s, f).st, message);
      o.Ok? ==>
        && Wf(h, o.st.repo)
        && Tracking(GetHead(o.st.repo), f)
        && GetHead(o.st.repo).files[f].content == s.wd[f]
        && Checkout1(o.st.(wd := later), f, GetHead(o.st.repo)) == Ok(State(o.st.repo, later[f := s.wd[f]]))
  {
    var a := Add(h, s, f).st;
    AddRmPreserveWf(h, s, f);
    var o := CommitChanges(h, now, a, message);
    if o.Ok? {
      CommitPreservesWf(h, now, a, message);
      var head := GetHead(s.repo);
      assert GetHead(a.repo) == head;
      assert f !in a.repo.removals;
      SnapshotRules(head.files, a.repo.staging, a.repo.removals);
      var c := NextCommit(h, now, a.repo, message);
      assert GetHead(o.st.repo) == c;
      assert f in c.files && c.files[f].content == s.wd[f];
      assert o.st.repo.staging - {f} == o.st.repo.staging;
    }
  }
}

=== FILE: wrappers.dfy ===
/** The Some/None datatype that stands in for Java's nullable references. */
module Wrappers {

  datatype Option<+T> = None | Some(value: T) {

    /** The value held, or `default` where Java would have a null reference. */
    function GetOr(default: T): T {
      match this
      case Some(v) => v
      case None => default
    }
  }
}
